=== FILE: README.md ===
# ACM-CUI-Web backend rules in Dafny

This project models the rules underneath the ACM-CUI-Web Django backend.
The framework wiring is not modelled. The rules covered are:

- **Event registration:** the seat check, the SINGLE-size check, atomic creation of a registration with its participants, and the displayed registration count.
- **Events:** event writes and the event model's enums, defaults and field bounds.
- **Permissions:** the permission classes of `permissions.py`, with Python's truthiness rules taken literally.
- **Endpoint access:** the table of `views/event.py` and `views/bill.py`, that is, each view's permission, its handled methods and its serializer.
- **Object storage:** the lifecycle of stored files. Upload paths are `folder/<uuid>_<name>`; public URLs and deletion from a named bucket are also covered.
- **Input validators:** roll number (stripped of surrounding whitespace), club, image content types, bill amount bounds, and the profile uniqueness check that excludes the current user.
- **Users:** student create and update, profile update and login.
- **Blogs:** blog create and update, including which images are deleted, and inline images.
- **Recruitment:** the recruitment views' query rules, that is, the active-session window, the status-update guard, the export filters and the export row contents.
- **Bills:** bills and their model constraints.

How the system's state and environment are represented:

- The database is represented by immutable records held in sequences and maps.
- The object store is a map from bucket name to the set of stored paths (`Storage.Store`).
- `uuid4()` becomes a `token` argument that must look like a canonical UUID (36 characters, hex digits and four hyphens).
- The current date becomes an argument.
- Password hashing and `authenticate` become function-typed arguments.
- `IsAdminOrLeadOrReadOnly` is used by the event views but not defined in `permissions.py`. It becomes a boolean argument that carries its verdict.

Modules, one per source component:

| module | file | models |
|---|---|---|
| `Common` | `common.dfy` | `Option`, `Result`, Python truthiness of an optional string, order-preserving filter |
| `Text` | `text.dfy` | ASCII `str.upper`, `str.strip`, decimal rendering and parsing, `str.join`, first index of a character |
| `Storage` | `storage.dfy` | `backend/api/utils.py`: upload, public URL, delete; the `<folder>/<id>/<filename>` upload paths of the models |
| `Permissions` | `permissions.dfy` | `backend/api/permissions.py` |
| `EventModel` | `event_model.dfy` | `backend/api/models/event.py` |
| `EventSerializers` | `event_serializers.dfy` | `backend/api/serializers/event.py` |
| `Users` | `users.dfy` | `backend/api/serializers/user.py` |
| `Blog` | `blog.dfy` | `backend/api/serializers/blog.py` |
| `Bills` | `bills.dfy` | `backend/api/models/bill.py`, `backend/api/serializers/bill.py` |
| `Recruitment` | `recruitment.dfy` | `backend/api/views/recruitment.py` |
| `Endpoints` | `endpoints.dfy` | `backend/api/views/event.py`, `backend/api/views/bill.py` |

## Model

| member | source | states |
|---|---|---|
| Text.Upper | backend/api/permissions.py:41 | Python's `str.upper` on ASCII: the result has the same length and no lower-case letter; non-letters are kept; each lower-case letter moves down by 32 code points |
| Text.TrimStart | backend/api/serializers/user.py:20-24 | `lstrip`: what is removed is a prefix of whitespace only, and the rest does not start with whitespace |
| Text.TrimEnd | backend/api/serializers/user.py:20-24 | `rstrip`: what is kept is a prefix; everything removed is whitespace, and the rest does not end with whitespace |
| Text.Strip | backend/api/serializers/user.py:20-24 | `strip` with Python's `isspace` characters: the result neither starts nor ends with whitespace, and is empty exactly when the input is all whitespace |
| Text.StripPadded | backend/api/serializers/user.py:20-24 | stripping any whitespace from around a text that neither starts nor ends with whitespace gives that text back |
| Text.UpperIdempotent | backend/api/models/event.py:31-34 | upper-casing twice equals upper-casing once |
| Text.ParseDecimal | backend/api/views/recruitment.py:167-170 | a query value is read as a number exactly when it is a non-empty string of digits |
| Text.ParseDecimalOf | backend/api/views/recruitment.py:167-170 | parsing the decimal rendering of any natural number gives that number back |
| Text.Join | backend/api/views/recruitment.py:231-232 | `", ".join`: empty for no items, the item itself for one; for more, the first item, the separator and the join of the rest; its length is the items' lengths plus one separator between each pair |
| Text.JoinAppend | backend/api/views/recruitment.py:231-232 | joining two non-empty lists one after the other equals joining each and putting one separator between them |
| Storage.UuidHasNoSeparators | backend/api/utils.py:76 | a canonical uuid4 text contains neither `/` nor `_` |
| Storage.UploadFile | backend/api/utils.py:70-83 | the returned path is `folder/<uuid>_<name>`, begins with `folder/` and is 38 characters longer than folder and name together; exactly that path is added to the upload bucket; every other bucket is unchanged |
| Storage.SplitUploadPath | backend/api/utils.py:76 | a path that splits into folder, token and name rejoins to itself; the folder has no `/` and the token no `_` |
| Storage.UploadPathRoundTrip | backend/api/utils.py:76 | splitting an upload path built from a `/`-free folder and a uuid recovers the folder, the uuid and the file name, even when the name contains `/` or `_` |
| Storage.UploadPathsDistinct | backend/api/utils.py:76 | two uploads to one folder with different uuids never share a path, whatever the file names |
| Storage.PublicUrl | backend/api/utils.py:85-86 | the public URL is the fixed prefix (Supabase URL, public-object segment, configured bucket) followed by exactly the path |
| Storage.PathOfPublicUrl | backend/api/utils.py:85-86 | a URL yields a path exactly when it starts with the public prefix, and the path rebuilds that URL |
| Storage.PublicUrlRoundTrip | backend/api/utils.py:85-86 | the path is recovered from its public URL |
| Storage.DisplayUrl | backend/api/serializers/event.py:29-32 | `None` exactly for a missing or empty image path; otherwise a public URL from which the stored path is recovered |
| Storage.DeleteFromBucket | backend/api/utils.py:88-91 | an empty path leaves the store unchanged; a non-empty one is removed from the named bucket and nothing else is removed; other buckets are unchanged |
| Storage.SplitModelUploadPath | backend/api/models/event.py:8-9 | a model upload path that splits into folder, id and file name rejoins to itself |
| Storage.IdText | backend/api/models/bill.py:7 | an id in an f-string: `None` exactly for an unsaved instance, otherwise decimal digits; never a `/` |
| Storage.ModelUploadPathRoundTrip | backend/api/models/bill.py:6-7 | `<folder>/<id>/<filename>` splits back into its folder, its id (or `None` for an unsaved instance) and its file name, for a `/`-free folder |
| Permissions.IsAdminOrReadOnly | backend/api/permissions.py:27-30 | GET, HEAD and OPTIONS are always allowed; any other method only for an authenticated ADMIN |
| Permissions.IsLeadOrAdmin | backend/api/permissions.py:32-34 | as written: holds exactly for authenticated users, whatever their role, because the string `'ADMIN'` is truthy |
| Permissions.IsStaff | backend/api/permissions.py:36-37 | as written: truthy for every role; for a role other than LEAD it is the string `'ADMIN'` |
| Permissions.IsLeadOrAdminIntended | backend/api/permissions.py:32-34 | the intended reading: holds exactly when `IsLead` or `IsAdmin` holds |
| Permissions.LeadOrAdminAdmitsStudent | backend/api/permissions.py:34 | a STUDENT account is admitted by the written check and refused by the intended one |
| Permissions.LeadOrAdminAgreesOnStaff | backend/api/permissions.py:34 | the written check admits everyone the intended one admits; the extra users are exactly the accounts whose role is neither LEAD nor ADMIN |
| Permissions.IsTreasurer | backend/api/permissions.py:39-41 | allowed exactly for an account whose student title, upper-cased in ASCII, is TREASURER; an account without a student profile raises; anonymous users are refused |
| Permissions.IsTreasurerIgnoresCase | backend/api/permissions.py:39-41 | two titles that are equal once upper-cased get the same verdict |
| Permissions.TreasurerTitles | backend/api/permissions.py:41 | with ASCII upper-casing, a title passes exactly when it is TREASURER with each letter in either case |
| Permissions.SignUpPermission | backend/api/permissions.py:43-48 | refused exactly for a LEAD whose club differs from the requested club; raises for a LEAD without a profile or without a `club` key; allowed in every other case, including every non-LEAD |
| Permissions.IsAdminOrAuthor | backend/api/permissions.py:51-67 | the view-level and object-level checks together admit exactly an authenticated ADMIN or the blog's author |
| EventModel.ParseRegistrationType | backend/api/models/event.py:12-14 | exactly "SINGLE" and "TEAM" are registration types, each read back as the choice it names |
| EventModel.RegistrationTypeRoundTrip | backend/api/models/event.py:12-14 | every registration type parses back from its stored text |
| EventModel.ParseRegistrationStatus | backend/api/models/event.py:17-20 | exactly PENDING, COMPLETED and CANCELLED are statuses |
| EventModel.RegistrationStatusRoundTrip | backend/api/models/event.py:17-20 | every status parses back from its stored text |
| EventModel.SaveEventType | backend/api/models/event.py:31-34 | the saved type has the input's length and no lower-case letter; each lower-case letter is replaced by its capital and every other character is kept; it is empty exactly when the input is |
| EventModel.SaveEventTypeIdempotent | backend/api/models/event.py:31-34 | saving an event type twice stores what saving it once stores |
| EventModel.EventBoundErrors | backend/api/models/event.py:43-69 | no error exactly when the event is within its field bounds: title ≤ 200, description ≤ 500, location ≤ 200, image ≤ 255, tags ≤ 25, hosts ≤ 30; each of title, description and location is reported exactly when over its bound |
| EventModel.EventImageUploadPath | backend/api/models/event.py:8-9 | the `upload_to` of `EventImage.image`: the path starts with `events/` and splits back into `events`, the EventImage row's own id and the file name; for a row not yet saved the id reads `None` |
| EventSerializers.ActivePlusCancelled | backend/api/serializers/event.py:24-27 | the event's registrations that are not CANCELLED and those that are add up to all of its registrations |
| EventSerializers.ActiveCountIsFilter | backend/api/serializers/event.py:25-27 | the active count is the size of the queryset filtered to the event with CANCELLED excluded |
| EventSerializers.AdmissionCountAppend | backend/api/serializers/event.py:120 | adding a registration raises the seat-check count of its own event by one and of no other event |
| EventSerializers.RegistrationCount | backend/api/serializers/event.py:24-27 | the displayed count is the number of the event's registrations that are not CANCELLED; with the cancelled ones it adds up to the count the seat check uses, so it is never larger |
| EventSerializers.MissingPkMessage | backend/api/serializers/event.py:116 | the error for an unknown event quotes the key and differs from both messages of `validate` |
| EventSerializers.ValidateRegistration | backend/api/serializers/event.py:115-136 | accepted exactly when the event exists, its registrations of every status are fewer than its seats, and a SINGLE registration has one participant; an unknown event gets the missing-key message; a full event gets the no-seats message; a TEAM registration never gets the size message |
| EventSerializers.LinkParticipants | backend/api/serializers/event.py:144-150 | one participant per input, in order, each linked to the registration, with fresh consecutive ids |
| EventSerializers.CreateRegistration | backend/api/serializers/event.py:138-152 | one step appends exactly one PENDING registration with a fresh id, and exactly one participant per input linked to it; existing rows and events are untouched; database consistency is preserved, and so are the column bounds when the request keeps them |
| EventSerializers.Register | backend/api/serializers/event.py:115-152 | creation happens exactly when validation passes; otherwise the validation message is returned and nothing is created |
| EventSerializers.RegisterKeepsCapacity | backend/api/serializers/event.py:120-123 | if no event holds more registrations than seats, that stays so after a successful registration (sequential requests only) |
| EventSerializers.DisplayedCountWithinSeats | backend/api/serializers/event.py:24-27 | under that capacity invariant, the displayed count never exceeds the seats |
| EventSerializers.DefaultSeatsAdmitNobody | backend/api/models/event.py:51 | with the default of 0 seats, every registration attempt is refused with the no-seats message |
| EventSerializers.UpdateRegistrationStatus | backend/api/serializers/event.py:155-160 | only the status of the registration with that id changes; events and participants are untouched |
| EventSerializers.StatusChangeKeepsAdmissionCount | backend/api/serializers/event.py:120 | rewriting registrations without moving them between events leaves every seat-check count unchanged |
| EventSerializers.CancelledStillOccupiesSeat | backend/api/serializers/event.py:120 | cancelling a registration frees no seat: seat-check counts are unchanged, and no request accepted after a cancellation would have been refused before it |
| EventSerializers.CreateEvent | backend/api/serializers/event.py:66-74 | without an image the store is unchanged and the image is empty; with one, exactly its `events` upload path is added to the upload bucket, and it is stored exactly when the file name is at most 211 characters, so that the path fits the 255-character column; otherwise the row keeps no image; other buckets are unchanged; a row within bounds stays within bounds |
| EventSerializers.ApplyEventPatch | backend/api/serializers/event.py:79-80 | for each of the eleven writable fields, a supplied value replaces the stored one and an absent one keeps it; an empty patch changes nothing |
| EventSerializers.UpdateEventAsWritten | backend/api/serializers/event.py:76-86 | as written: fields are patched, the new image is uploaded and the save succeeds, yet the stored `image` stays what it was; only the upload bucket gains the new path |
| EventSerializers.UpdateEvent | backend/api/serializers/event.py:76-86 | corrected: with a new image its path is added to the upload bucket, and the save succeeds exactly when the file name is at most 211 characters; then the fields are patched and the image is the new path, otherwise the row stays as it was; without an image the image and store are unchanged; nothing is deleted; bounds are kept |
| EventSerializers.UpdateEventImageDiscrepancy | backend/api/serializers/event.py:82-83 | for an event without an image, the written update still displays no image after an upload whose object is in the bucket; the corrected one displays the upload whenever the name fits the column |
| Users.RollNoRoundTrip | backend/api/serializers/user.py:20-24 | every in-range roll number renders to text that matches the pattern and parses back to it |
| Users.RollNoParseRoundTrip | backend/api/serializers/user.py:20-24 | every text matching the pattern is the rendering of the roll number it parses to |
| Users.ValidateRollNo | backend/api/serializers/user.py:20-24 | surrounding whitespace is stripped first; accepted exactly when the stripped value matches the pattern, and that stripped value, at most 20 characters, is returned; all-whitespace input gets the blank message |
| Users.PaddedRollNoAccepted | backend/api/serializers/user.py:20-24 | every well-formed roll number is accepted with any whitespace around it, and the roll number alone is kept |
| Users.ValidateClub | backend/api/serializers/user.py:25-37 | accepted exactly for one of the six clubs or the blank value |
| Users.CreateStudent | backend/api/serializers/user.py:53-69 | the user gets every given attribute, with the password hashed; the student is linked to that user; the picture is uploaded under `profiles` only when given, and no other bucket changes |
| Users.ProfilePicUrl | backend/api/serializers/user.py:48-51 | `None` exactly for a missing or empty picture path; otherwise a public URL from which the path is recovered |
| Users.CreatedStudentPictureUrl | backend/api/serializers/user.py:64-67 | a student created with a picture shows a URL that leads back to the uploaded object `profiles/<uuid>_<name>`, which is in the upload bucket |
| Users.ApplyUserData | backend/api/serializers/user.py:80-86 | a supplied password is stored hashed, every other supplied attribute as given, and unsupplied ones are kept |
| Users.ReplacePicture | backend/api/serializers/user.py:88-93 | a non-empty previous picture is removed from the `media` bucket before the new one is uploaded under `profiles`; the upload bucket ends with the new path added; every other bucket loses at most that previous picture and gains nothing |
| Users.UpdateStudent | backend/api/serializers/user.py:71-96 | student fields are overwritten, user data is applied only when non-empty, and without a new picture the picture and store are unchanged |
| Users.UpdateStudentRemovesOnlyPrevious | backend/api/serializers/user.py:88-93 | an object that an update removes from any bucket is the student's previous picture, taken from `media`, and only when a new picture was sent |
| Users.ValidateUnique | backend/api/serializers/user.py:154-170 | an email or username is refused exactly when another user already holds it during an update; the current user's own value and every create are accepted |
| Users.UpdateProfile | backend/api/serializers/user.py:199-217 | picture and description change only when their keys are present; user attributes other than `id` are assigned; the user's id never changes |
| Users.UpdateProfileIdempotent | backend/api/serializers/user.py:199-217 | sending the same profile update twice leaves what the first one stored |
| Users.ValidateLogin | backend/api/serializers/user.py:225-238 | `validate` on its own: succeeds exactly with a non-empty username and password that authenticate an active user; an authenticated inactive user gets the disabled message; an unknown pair the bad-credentials message; a missing or empty credential the "Must include" message |
| Users.CleanCharField | backend/api/serializers/user.py:221-222 | a required `CharField` keeps exactly the texts that are non-empty after stripping and hold no NUL, and yields the stripped text; an absent key gets "required", `null` gets "may not be null", whitespace-only text gets "may not be blank" |
| Users.Login | backend/api/serializers/user.py:221-238 | field errors exactly when either credential fails its field, both reported; otherwise `validate` runs on the stripped values, logging in exactly an authenticated active user; its only refusals are the bad-credentials and disabled messages |
| Users.LoginNeverMissingCredentials | backend/api/serializers/user.py:221-238 | no request ever receives the "Must include 'username' and 'password'" message: the field checks stop every request that would reach it |
| Users.PaddedCredentialsIgnored | backend/api/serializers/user.py:221-222 | whitespace around the username and password does not change the login outcome |
| Users.SplitFullName | backend/api/serializers/user.py:128-129 | a display name splits at its first space into parts that rebuild it, and does not split only when there is no space |
| Users.FullNameRoundTrip | backend/api/serializers/user.py:128-129 | the display name of a space-free first name recovers the first and last name |
| Blog.ValidateImages | backend/api/serializers/blog.py:87-96 | accepted exactly when every detected content type is jpeg, png or webp; a rejection names an offending image |
| Blog.ValidateBlogUpload | backend/api/serializers/blog.py:79-96 | accepted exactly with a non-empty title of at most 255 characters, non-empty content, at least one image and only allowed types |
| Blog.UploadBlogImages | backend/api/serializers/blog.py:108-110 | one image row per upload, in order, each holding its `blogs` upload path; exactly those paths are added to the upload bucket |
| Blog.CreateBlog | backend/api/serializers/blog.py:98-112 | the blog is stored with its author, and one image row per image is appended under `blogs` |
| Blog.KeptImages | backend/api/serializers/blog.py:139-149 | an image survives exactly when it is not both listed for deletion and owned by this blog |
| Blog.DoomedPaths | backend/api/serializers/blog.py:145-147 | the files removed are exactly the non-empty paths of images both listed and owned by this blog |
| Blog.DeleteBlogImages | backend/api/serializers/blog.py:139-149 | the surviving rows are the kept images; exactly the doomed paths leave the `media` bucket; other buckets are unchanged |
| Blog.UpdateBlog | backend/api/serializers/blog.py:131-156 | absent title or content is kept; the kept images come first, then one new row per new image; other blogs' images survive; the `media` bucket loses the doomed paths before the uploads are added |
| Blog.CreateInlineImage | backend/api/serializers/blog.py:42-50 | the image path is set only when an image is given, and it is the `blogs` upload path of that image; exactly that path is added to the upload bucket and no other bucket changes |
| Blog.UpdateInlineImage | backend/api/serializers/blog.py:52-62 | a new image replaces the path with a fresh upload, which is the one path added to the upload bucket; no file is removed from any bucket; without one nothing changes |
| Blog.InlineImageUrl | backend/api/serializers/blog.py:37-40 | `None` exactly for a missing or empty path; otherwise a public URL from which the path is recovered |
| Blog.CreatedInlineImageUrl | backend/api/serializers/blog.py:42-50 | an inline image created with a picture shows a URL that leads back to the uploaded object `blogs/<uuid>_<name>`, which is in the upload bucket |
| Blog.UpdateInlineImageOrphans | backend/api/serializers/blog.py:58-59 | replacing the picture of an inline image leaves the earlier object in the bucket while the row no longer refers to it |
| Bills.BillImageUploadPath | backend/api/models/bill.py:6-7 | a path helper that no column uses as its `upload_to`: the path starts with `bills/` and splits back into `bills`, the instance id and the file name; for an unsaved instance the id reads `None` |
| Bills.ValidateBill | backend/api/models/bill.py:9-13 | accepted exactly with a non-empty description of at most 200 characters, an amount in [0, 10^10) cents and an image; an amount with more than 8 whole digits gets the digits message even when negative; a missing date becomes today; accepted fields are within the model's bounds |
| Bills.CreateBill | backend/api/serializers/bill.py:27-35 | the image's `bills` upload path is the one path added to the upload bucket; it is saved on the new bill exactly when the file name is at most 212 characters, so that the path fits the 255-character column; otherwise the bill keeps an empty path; other buckets are unchanged; bounds are kept |
| Bills.CreatedBillHasReceipt | backend/api/serializers/bill.py:19-35 | a bill that passed validation is within the model's bounds, and its upload is in the bucket; the bill holds that path under `bills/` exactly when the name fits the column, and an empty path otherwise |
| Bills.UpdateBill | backend/api/serializers/bill.py:37-47 | a new image's path is always added to the upload bucket; the one save succeeds exactly when the name fits the column, and then supplied fields replace stored ones and the path is the new one; a failed save leaves the bill as it was; no file is removed from any bucket; bounds are kept |
| Bills.UpdateBillOrphansReceipt | backend/api/serializers/bill.py:43-46 | replacing the receipt of a bill leaves the earlier object in the bucket while the bill no longer refers to it |
| Bills.BillImageUrl | backend/api/serializers/bill.py:13-16 | `None` exactly for an empty image path; otherwise a public URL from which the path is recovered |
| Recruitment.ActiveSessions | backend/api/views/recruitment.py:94-99 | exactly the sessions whose application window contains today, both ends included |
| Recruitment.WindowInclusive | backend/api/views/recruitment.py:96-99 | a session is active on its first and last application day and not on the day after |
| Recruitment.UpdateStatus | backend/api/views/recruitment.py:71-82 | a missing or empty status gives 400 and leaves the application unchanged; any other value is stored unchecked; no other field changes |
| Recruitment.FilterBySession | backend/api/views/recruitment.py:167-174 | a non-empty session id selects by id, or raises when it is not a number; otherwise a non-empty session code selects by code; otherwise everything is kept |
| Recruitment.FilterByStatus | backend/api/views/recruitment.py:176-183 | a non-empty status outside the choices gives 400; a valid one keeps exactly the applications with that status |
| Recruitment.FilterByRole | backend/api/views/recruitment.py:185-191 | a non-empty role outside the choices gives 400; a valid one keeps exactly the applications whose preferences name it |
| Recruitment.SessionIdTakesPrecedence | backend/api/views/recruitment.py:295-302 | with a non-empty session id, the session code changes neither export |
| Recruitment.InvalidFiltersRejected | backend/api/views/recruitment.py:304-306 | an invalid status gives 400 in both exports, with each view's message; an invalid role gives 400 in the Excel export |
| Recruitment.ExcelRow | backend/api/views/recruitment.py:210-239 | 23 cells, one per header; the cells of a missing personal, academic or role record are empty strings; skills and coursework are joined with ", " |
| Recruitment.PdfRow | backend/api/views/recruitment.py:338-352 | 8 cells, one per header; the name cell is the first name, a space and the last name, or empty |
| Recruitment.PdfRowAgreesWithExcelRow | backend/api/views/recruitment.py:343-352 | every PDF cell except the name equals the Excel cell of the same field; the name joins the two Excel name cells |
| Recruitment.ExcelExport | backend/api/views/recruitment.py:151-239 | a table exactly when the filters pass, otherwise the filters' 400 answer; a 23-column header, then row i is the Excel row of the i-th selected application |
| Recruitment.PdfExport | backend/api/views/recruitment.py:283-352 | a table exactly when the filters pass, otherwise the filters' 400 answer; an 8-column header, then row i is the PDF row of the i-th selected application |
| Recruitment.NoFilterExportsEverything | backend/api/views/recruitment.py:167-191 | with no query parameters, both exports list every application |
| Endpoints.Handler | backend/api/views/event.py:18-69 | which methods each generic view handles; the status-update view handles PATCH only; the registration detail view handles only safe methods |
| Endpoints.SerializerFor | backend/api/views/event.py:22-58 | event and bill lists use the write serializer exactly for POST; the detail views exactly for PUT and PATCH; the registration list uses the read serializer exactly for GET |
| Endpoints.Gate | backend/api/views/event.py:18-69 | corrected: bill views are gated by `IsTreasurer`; status update and delete admit LEAD and ADMIN accounts; registration list and detail admit everyone; event views follow `IsAdminOrLeadOrReadOnly` |
| Endpoints.Dispatch | backend/api/views/event.py:18-69 | refusal and failure come from the permission alone; 405 exactly when the permission allows an unhandled method; a destroy uses no serializer |
| Endpoints.BillEndpointsNeedTreasurer | backend/api/views/bill.py:7-24 | a bill endpoint is reached, with any method, exactly when `IsTreasurer` allows and the method is handled |
| Endpoints.PermissionBeforeMethod | backend/api/views/event.py:44-48 | for a fixed permission verdict, a refused request is answered the same for every method, TRACE included, and never with 405 |
| Endpoints.StatusUpdateOnlyPatch | backend/api/views/event.py:44-48 | corrected: the status update is reached exactly by PATCH from a LEAD or ADMIN account, with the status serializer |
| Endpoints.RegistrationDeleteStaffOnly | backend/api/views/event.py:67-69 | corrected: a LEAD or ADMIN account's DELETE destroys the registration; anyone else is refused |
| Endpoints.WrittenLeadOrAdminGate | backend/api/views/event.py:47 | on the two `IsLeadOrAdmin` views, the class as written admits a superset of the gate; the extra users are exactly the non-staff accounts, a STUDENT among them |
| Endpoints.RegistrationListSerializers | backend/api/views/event.py:51-64 | registration list and detail are open to everyone; GET lists with the read serializer, HEAD with the create serializer, POST creates; the detail view answers POST with 405 |
| Endpoints.WriteSerializerIffWriting | backend/api/views/event.py:22-35 | on event and bill views, a handler uses the write serializer exactly when it creates or updates |

## Left out

- **Services:**
  - Excel and PDF rendering (workbook, styles, page layout) is left out; only header and row cells are modelled.
  - JWT issuance, e-mail (OTP and password mails) and the Supabase client are not modelled. Storage is the bucket map.
- **Environment:**
  - Password hashing and `authenticate` are function arguments with no properties assumed.
  - `uuid4()` is a token argument. The model assumes each call yields a UUID-shaped text, and distinct calls are given distinct tokens.
  - `now()` and `date.today()` become day-number arguments.
- **Concurrency:** the seat check runs outside the atomic block, so two concurrent requests can both pass it. The model is sequential and claims no concurrent capacity guarantee.
- **ORM and DRF plumbing:** querysets, select/prefetch, DB uniqueness constraints, DRF field coercion, whitespace trimming of fields other than `roll_no` and the login credentials, and DRF's collection of several field errors at once outside login. Each other validator returns its first error.
- **Participant validation:** the field checks of the participant and registration serializers are not modelled. `EventSerializers.RequestWithinBounds` states their outcome, the column bounds, as a condition.
- **Path columns of other models:** `Student.profile_pic`, `BlogImage.image` and `InlineImage.image` belong to model files that are not part of this model. Their length limits are not checked, so the student, blog and inline-image writes always store the path.
- **Missing models:** the Student, User and recruitment model files are not part of this model.
  - User and student fields are attribute maps.
  - The ApplicationStatus and Role choice sets are arguments.
- **`IsAdminOrLeadOrReadOnly`:** not part of this model. Its verdict is an argument.
- **Other views:** `backend/api/views/reqruitment.py` duplicates the active-session window and the submit endpoint, and is not part of this model. The recruitment views' own permission classes and the export views' authentication are not modelled. The frontend is not modelled.
- Text.Upper: ASCII letters only; Python's `str.upper` also maps non-ASCII letters.
- Permissions.IsTreasurer, Permissions.TreasurerTitles: titles that Python upper-cases to TREASURER only through non-ASCII letters, such as `treaſurer` (long s), are refused by the model while the program admits them.
- Endpoints.PermissionBeforeMethod: the verdict of `IsAdminOrLeadOrReadOnly` is one argument for all methods, so the lemma compares methods under a fixed verdict; the real class may allow GET where it refuses POST.
- Recruitment.FilterBySession: only plain digit strings count as ids. Python's `int()` also accepts surrounding spaces, a sign and underscores; these are modelled as the error path.
- Recruitment.ExcelRow: dates are day numbers and the semester a number. Cell formatting is not modelled.
- Users.Login, Users.CleanCharField: a credential is absent, `null` or a string. A JSON number, which DRF turns into its text, is not modelled, and a boolean, list or object, which DRF refuses as "Not a valid string.", is not either.
- Blog.ValidateImages: the image check of DRF's `ImageField` is not modelled. That check opens the file with Pillow and refuses a non-image or a bad extension with "Upload a valid image…" before `validate_images` runs. It then sets the content type from the detected format, which the model takes as given.
- Users.UpdateProfile: the uploaded file object is assigned to the picture field directly and no upload happens; the model stores the file's name. The 200-character limit on the description is not modelled.
- Users.ValidateRollNo: the pattern is modelled as the fixed-length check it denotes; the regex engine itself is not modelled. The value is stripped before the pattern runs, so `$` before a final newline never comes into play.
- EventModel.EventBoundErrors: reports title, description and location by name. Image, tags and hosts are folded into `EventWithinBounds` only.
- Endpoints.Dispatch: does not model the 401/403 distinction, the OPTIONS metadata body, or object lookup (404).
- Bills.ValidateBill: the amount is integer cents, and the description check is a length check on the untrimmed text. Decimal parsing and rounding are not modelled, so the "no more than 10 digits in total" message, which an over-long amount written with two decimal places receives first, is not distinguished from the whole-digits message.

## Findings

| source | as written | input that shows it | evidently intended | confidence | as-written member | corrected member |
|---|---|---|---|---|---|---|
| backend/api/permissions.py:34 | `role == LEAD or ADMIN` is truthy for every role, so `IsLeadOrAdmin` admits any authenticated user (same in `is_staff`, line 37) | an authenticated account with role STUDENT passes `IsLeadOrAdmin` and can delete any event registration | `role in (LEAD, ADMIN)` | high, not executed | Permissions.IsLeadOrAdmin (witness: Permissions.LeadOrAdminAdmitsStudent) | Permissions.IsLeadOrAdminIntended (used by Endpoints.Gate; see Endpoints.WrittenLeadOrAdminGate) |
| backend/api/serializers/event.py:83 | an event update with a new image assigns `image_path`, a field the Event model does not have; the stored `image` is unchanged | an event with no image, updated with an image file, still shows no image | assign `instance.image` | high, not executed | EventSerializers.UpdateEventAsWritten (witness: EventSerializers.UpdateEventImageDiscrepancy) | EventSerializers.UpdateEvent |

=== FILE: bills.dfy ===
/** The expense bills of `backend/api/models/bill.py` and
    `backend/api/serializers/bill.py`. The decimal amount (10 digits, 2 of them
    decimal places) is held as a whole number of cents. */
module Bills {
  import opened Common
  import opened Storage

  const BillsFolder := "bills"

  /** 10 digits with 2 decimal places: at most 8 digits before the point, so
      the amount in cents is below 10^10. */
  const CentsLimit: int := 10_000_000_000

  datatype BillFields = BillFields(description: string, amountCents: int, date: nat)

  /** A `Bill` row; `image` is the bucket path of the receipt picture. */
  datatype Bill = Bill(id: nat, fields: BillFields, image: string)

  /** `Bill.image` is a `CharField(max_length=255)`: a longer path makes the
      database refuse the save. */
  const ReceiptColumnLength := 255

  /** The longest receipt file name whose upload path still fits the column:
      `bills/`, the uuid and the underscore take 43 characters. */
  const LongestReceiptName := 212

  /** The constraints `Bill` declares on its written columns. */
  predicate FieldsWithinBounds(f: BillFields) {
    |f.description| <= 200 && 0 <= f.amountCents < CentsLimit
  }

  /** The constraints `Bill` declares. */
  predicate BillWithinBounds(b: Bill) {
    FieldsWithinBounds(b.fields) && |b.image| <= ReceiptColumnLength
  }

  /** `bill_image_upload_path(instance, filename)`: `bills/<id>/<filename>`,
      with `None` for an instance not yet saved. No column of `Bill` uses it
      as its `upload_to`. */
  function BillImageUploadPath(instanceId: Option<nat>, filename: string): (p: string)
    ensures "bills/" <= p
    ensures instanceId.None? ==> p == BillsFolder + "/None/" + filename
    ensures SplitModelUploadPath(p) == Some(ModelPathParts("bills", instanceId, filename))
  {
    ModelUploadPathRoundTrip("bills", instanceId, filename);
    ModelUploadPathShape("bills", instanceId, filename);
    ModelUploadPath("bills", instanceId, filename)
  }

  /** The decimal field's precision error, which comes before the bound check
      and counts digits whatever the sign. */
  const TooManyDigitsMessage := "Ensure that there are no more than 8 digits " + "before the decimal point."

  /** The field checks of `BillWriteSerializer` on a create: description
      non-empty and at most 200 long, amount with at most 8 digits before the
      point and then not negative, picture present; the date defaults to `today`. */
  function ValidateBill(description: string, amountCents: int, date: Option<nat>, image: Option<UploadedFile>, today: nat): (r: Result<BillFields>)
    ensures r.Ok? <==> description != "" && |description| <= 200 && 0 <= amountCents < CentsLimit && image.Some?
    ensures r.Ok? ==> r.value == BillFields(description, amountCents, if date.Some? then date.value else today)
    ensures r.Ok? ==> FieldsWithinBounds(r.value)
    ensures image.None? ==> r.Err?
    ensures description != "" && |description| <= 200 && amountCents <= -CentsLimit ==> r == Err(TooManyDigitsMessage)
  {
    if description == "" then Err("This field may not be blank.")
    else if |description| > 200 then Err("Ensure this field has no more than 200 characters.")
    else if amountCents <= -CentsLimit || amountCents >= CentsLimit then Err(TooManyDigitsMessage)
    else if amountCents < 0 then Err("Ensure this value is greater than or equal to 0.")
    else if image.None? then Err("No file was submitted.")
    else Ok(BillFields(description, amountCents, if date.Some? then date.value else today))
  }

  /** The outcome of a write: the row as the database then holds it, the store
      afterwards, and whether the final `save` succeeded. When it fails (the
      request ends in a server error) the uploaded object stays in the bucket. */
  datatype BillWrite = BillWrite(bill: Bill, store: Store, saved: bool)

  /** `BillWriteSerializer.create`: the row is created with an empty path, then
      the picture is uploaded under `bills` and its path saved, which fails when
      the path is longer than the column. */
  function CreateBill(cfg: Config, st: Store, id: nat, fields: BillFields, image: Option<UploadedFile>, token: string): (w: BillWrite)
    requires IsUuidText(token)
    ensures w.bill.id == id && w.bill.fields == fields
    ensures w.saved <==> image.None? || |image.value.name| <= LongestReceiptName
    ensures image.Some? && w.saved ==> w.bill.image == UploadPath(BillsFolder, token, image.value.name)
    ensures !w.saved || image.None? ==> w.bill.image == ""
    ensures image.Some? ==> Objects(w.store, cfg.uploadBucket) == Objects(st, cfg.uploadBucket) + {UploadPath(BillsFolder, token, image.value.name)}
    ensures forall b :: b != cfg.uploadBucket ==> Objects(w.store, b) == Objects(st, b)
    ensures image.None? ==> w.store == st
    ensures FieldsWithinBounds(fields) ==> BillWithinBounds(w.bill)
  {
    var created := Bill(id, fields, "");
    match image
    case None => BillWrite(created, st, true)
    case Some(f) =>
      var u := UploadFile(cfg, st, f, BillsFolder, token);
      if |u.path| <= ReceiptColumnLength then BillWrite(created.(image := u.path), u.store, true)
      else BillWrite(created, u.store, false)
  }

  /** A validated create stores a receipt under `bills/` exactly when the file
      name fits the column; the stored bill then keeps every declared bound.
      With a longer name the row keeps an empty path while the uploaded object
      stays in the bucket, referenced by no bill. */
  lemma CreatedBillHasReceipt(cfg: Config, st: Store, id: nat, description: string, amountCents: int,
                              date: Option<nat>, image: Option<UploadedFile>, today: nat, token: string)
    requires IsUuidText(token)
    requires ValidateBill(description, amountCents, date, image, today).Ok?
    ensures var w := CreateBill(cfg, st, id, ValidateBill(description, amountCents, date, image, today).value, image, token);
      && BillWithinBounds(w.bill)
      && UploadPath(BillsFolder, token, image.value.name) in Objects(w.store, cfg.uploadBucket)
      && (w.saved <==> |image.value.name| <= LongestReceiptName)
      && (w.saved ==> BillsFolder + "/" <= w.bill.image && w.bill.image in Objects(w.store, cfg.uploadBucket))
      && (!w.saved ==> w.bill.image == "")
  {
  }

  /** The fields an update supplies; `None` for an absent key. */
  datatype BillPatch = BillPatch(description: Option<string>, amountCents: Option<int>, date: Option<nat>)

  predicate PatchWithinBounds(p: BillPatch) {
    (p.description.None? || |p.description.value| <= 200)
    && (p.amountCents.None? || 0 <= p.amountCents.value < CentsLimit)
  }

  /** `BillWriteSerializer.update`: supplied fields are assigned and a new
      picture is uploaded, its path replacing the stored one; one `save` writes
      it all, and fails, leaving the row as it was, when the path is longer than
      the column. The previous object is never removed from the bucket. */
  function UpdateBill(cfg: Config, st: Store, b: Bill, p: BillPatch, image: Option<UploadedFile>, token: string): (w: BillWrite)
    requires IsUuidText(token)
    ensures w.saved <==> image.None? || |image.value.name| <= LongestReceiptName
    ensures !w.saved ==> w.bill == b
    ensures w.bill.id == b.id
    ensures w.saved && p.description.Some? ==> w.bill.fields.description == p.description.value
    ensures p.description.None? ==> w.bill.fields.description == b.fields.description
    ensures w.saved && p.amountCents.Some? ==> w.bill.fields.amountCents == p.amountCents.value
    ensures p.amountCents.None? ==> w.bill.fields.amountCents == b.fields.amountCents
    ensures w.saved && p.date.Some? ==> w.bill.fields.date == p.date.value
    ensures p.date.None? ==> w.bill.fields.date == b.fields.date
    ensures image.None? ==> w.bill.image == b.image && w.store == st
    ensures image.Some? && w.saved ==> w.bill.image == UploadPath(BillsFolder, token, image.value.name)
    ensures image.Some? ==> Objects(w.store, cfg.uploadBucket) == Objects(st, cfg.uploadBucket) + {UploadPath(BillsFolder, token, image.value.name)}
    ensures forall bucket :: bucket != cfg.uploadBucket ==> Objects(w.store, bucket) == Objects(st, bucket)
    ensures BillWithinBounds(b) && PatchWithinBounds(p) ==> BillWithinBounds(w.bill)
  {
    var fields := BillFields(
      if p.description.Some? then p.description.value else b.fields.description,
      if p.amountCents.Some? then p.amountCents.value else b.fields.amountCents,
      if p.date.Some? then p.date.value else b.fields.date);
    match image
    case None => BillWrite(b.(fields := fields), st, true)
    case Some(f) =>
      var u := UploadFile(cfg, st, f, BillsFolder, token);
      if |u.path| <= ReceiptColumnLength then BillWrite(Bill(b.id, fields, u.path), u.store, true)
      else BillWrite(b, u.store, false)
  }

  /** Replacing the receipt of a bill whose picture came from an earlier upload
      (another uuid) leaves the earlier object in the bucket while the bill no
      longer refers to it. */
  lemma UpdateBillOrphansReceipt(cfg: Config, st: Store, b: Bill, p: BillPatch, f: UploadedFile, token: string,
                                 earlierToken: string, earlierName: string)
    requires IsUuidText(token) && IsUuidText(earlierToken) && earlierToken != token
    requires b.image == UploadPath(BillsFolder, earlierToken, earlierName)
    requires b.image in Objects(st, cfg.uploadBucket)
    requires |f.name| <= LongestReceiptName
    ensures var w := UpdateBill(cfg, st, b, p, Some(f), token);
      && w.saved
      && b.image in Objects(w.store, cfg.uploadBucket)
      && w.bill.image != b.image
  {
    UploadPathsDistinct(BillsFolder, token, earlierToken, f.name, earlierName);
  }

  /** `BillSerializer.get_image`. */
  function BillImageUrl(cfg: Config, b: Bill): (r: Option<string>)
    ensures r.None? <==> b.image == ""
    ensures r.Some? ==> PathOfPublicUrl(cfg, r.value) == Some(b.image)
  {
    DisplayUrl(cfg, Some(b.image))
  }
}

=== FILE: blog.dfy ===
/** The rules of `backend/api/serializers/blog.py`: the content-type check of
    blog images, blog creation with one image row per uploaded picture, blog
    update (deleting only the listed pictures of this blog, then appending the
    new ones), and the inline-image serializer. */
module Blog {
  import opened Common
  import opened Storage

  const AllowedImageTypes: seq<string> := ["image/jpeg", "image/png", "image/webp"]
  const BlogsFolder := "blogs"

  predicate AllowedType(f: UploadedFile) {
    f.contentType.Some? && f.contentType.value in AllowedImageTypes
  }

  /** `f"{content_type}"`: the declared type, or `None` when there is none. */
  function ContentTypeText(t: Option<string>): string {
    if t.Some? then t.value else "None"
  }

  function InvalidTypeMessage(f: UploadedFile): string {
    f.name + " has invalid content type (" + ContentTypeText(f.contentType) + ")."
  }

  /** `BlogUploadSerializer.validate_images`: the first picture whose detected
      content type is not JPEG, PNG or WebP is reported; sizes are not checked. */
  function ValidateImages(images: seq<UploadedFile>): (r: Result<seq<UploadedFile>>)
    ensures r.Ok? <==> forall i :: 0 <= i < |images| ==> AllowedType(images[i])
    ensures r.Ok? ==> r.value == images
    ensures r.Err? ==> exists i :: 0 <= i < |images| && !AllowedType(images[i]) && r.message == InvalidTypeMessage(images[i])
  {
    if images == [] then Ok(images)
    else if !AllowedType(images[0]) then Err(InvalidTypeMessage(images[0]))
    else
      match ValidateImages(images[1..])
      case Ok(_) =>
        assert forall i :: 1 <= i < |images| ==> images[i] == images[1..][i - 1];
        Ok(images)
      case Err(msg) =>
        assert forall i :: 0 <= i < |images[1..]| ==> images[1..][i] == images[i + 1];
        Err(msg)
  }

  /** The fields of `BlogUploadSerializer`: a non-empty title of at most 255
      characters, non-empty content, and a non-empty list of accepted pictures. */
  function ValidateBlogUpload(title: string, content: string, images: seq<UploadedFile>): (r: Result<seq<UploadedFile>>)
    ensures r.Ok? <==> title != "" && |title| <= 255 && content != "" && |images| > 0
                       && forall i :: 0 <= i < |images| ==> AllowedType(images[i])
    ensures images == [] ==> r.Err?
  {
    if title == "" || content == "" then Err("This field may not be blank.")
    else if |title| > 255 then Err("Ensure this field has no more than 255 characters.")
    else if images == [] then Err("This list may not be empty.")
    else ValidateImages(images)
  }

  datatype Blog = Blog(id: nat, title: string, content: string, authorId: nat)

  /** A `BlogImage` row: the bucket path of one picture of one blog. */
  datatype BlogImage = BlogImage(id: nat, blogId: nat, image: string)

  datatype BlogDb = BlogDb(blogs: map<nat, Blog>, images: seq<BlogImage>, nextBlogId: nat, nextImageId: nat)

  predicate UuidTokens(tokens: seq<string>) {
    forall i :: 0 <= i < |tokens| ==> IsUuidText(tokens[i])
  }

  /** The paths the pictures are uploaded to, one per picture. */
  function BlogPaths(images: seq<UploadedFile>, tokens: seq<string>): (ps: seq<string>)
    requires |tokens| == |images|
    ensures |ps| == |images|
    ensures forall i :: 0 <= i < |ps| ==> ps[i] == UploadPath(BlogsFolder, tokens[i], images[i].name)
  {
    seq(|images|, i requires 0 <= i < |images| => UploadPath(BlogsFolder, tokens[i], images[i].name))
  }

  function PathSet(ps: seq<string>): set<string> {
    set i | 0 <= i < |ps| :: ps[i]
  }

  /** Uploads each picture under `blogs` and makes one image row for each, in order. */
  method UploadBlogImages(cfg: Config, st: Store, images: seq<UploadedFile>, tokens: seq<string>, blogId: nat, firstId: nat)
    returns (rows: seq<BlogImage>, st': Store)
    requires |tokens| == |images| && UuidTokens(tokens)
    ensures |rows| == |images|
    ensures forall i :: 0 <= i < |rows| ==> rows[i] == BlogImage(firstId + i, blogId, BlogPaths(images, tokens)[i])
    ensures Objects(st', cfg.uploadBucket) == Objects(st, cfg.uploadBucket) + PathSet(BlogPaths(images, tokens))
    ensures forall b :: b != cfg.uploadBucket ==> Objects(st', b) == Objects(st, b)
  {
    ghost var paths := BlogPaths(images, tokens);
    rows := [];
    st' := st;
    var i := 0;
    while i < |images|
      invariant 0 <= i <= |images|
      invariant |rows| == i
      invariant forall j :: 0 <= j < i ==> rows[j] == BlogImage(firstId + j, blogId, paths[j])
      invariant Objects(st', cfg.uploadBucket) == Objects(st, cfg.uploadBucket) + PathSet(paths[..i])
      invariant forall b :: b != cfg.uploadBucket ==> Objects(st', b) == Objects(st, b)
    {
      var u := UploadFile(cfg, st', images[i], BlogsFolder, tokens[i]);
      assert PathSet(paths[..i + 1]) == PathSet(paths[..i]) + {paths[i]} by {
        assert forall j :: 0 <= j < i + 1 ==> paths[..i + 1][j] == paths[j];
        assert forall j :: 0 <= j < i ==> paths[..i][j] == paths[j];
      }
      rows := rows + [BlogImage(firstId + i, blogId, u.path)];
      st' := u.store;
      i := i + 1;
    }
    assert paths[..i] == paths;
  }

  /** `BlogUploadSerializer.create`: the blog, authored by the requesting user,
      and one image row per picture, each uploaded under `blogs`. */
  method CreateBlog(cfg: Config, st: Store, db: BlogDb, title: string, content: string, authorId: nat, images: seq<UploadedFile>, tokens: seq<string>)
    returns (blog: Blog, db': BlogDb, st': Store)
    requires |tokens| == |images| && UuidTokens(tokens)
    ensures blog == Blog(db.nextBlogId, title, content, authorId)
    ensures db'.blogs == db.blogs[blog.id := blog]
    ensures |db'.images| == |db.images| + |images|
    ensures db'.images[..|db.images|] == db.images
    ensures forall i :: 0 <= i < |images| ==>
      db'.images[|db.images| + i] == BlogImage(db.nextImageId + i, blog.id, UploadPath(BlogsFolder, tokens[i], images[i].name))
    ensures Objects(st', cfg.uploadBucket) == Objects(st, cfg.uploadBucket) + PathSet(BlogPaths(images, tokens))
    ensures forall b :: b != cfg.uploadBucket ==> Objects(st', b) == Objects(st, b)
  {
    blog := Blog(db.nextBlogId, title, content, authorId);
    var rows;
    rows, st' := UploadBlogImages(cfg, st, images, tokens, blog.id, db.nextImageId);
    db' := BlogDb(db.blogs[blog.id := blog], db.images + rows, db.nextBlogId + 1, db.nextImageId + |images|);
    assert db'.images[..|db.images|] == db.images;
  }

  /** An image row the update removes: one of this blog's, listed for deletion. */
  predicate Doomed(img: BlogImage, blogId: nat, toDelete: seq<int>) {
    img.blogId == blogId && (img.id as int) in toDelete
  }

  /** The rows left after the deletion, in their order. */
  function KeptImages(images: seq<BlogImage>, blogId: nat, toDelete: seq<int>): (kept: seq<BlogImage>)
    ensures forall img :: img in kept <==> img in images && !Doomed(img, blogId, toDelete)
  {
    if images == [] then []
    else
      var last := images[|images| - 1];
      var rest := KeptImages(images[..|images| - 1], blogId, toDelete);
      assert images == images[..|images| - 1] + [last];
      if Doomed(last, blogId, toDelete) then rest else rest + [last]
  }

  /** The bucket paths of the deleted rows that are non-empty. */
  function DoomedPaths(images: seq<BlogImage>, blogId: nat, toDelete: seq<int>): (ps: set<string>)
    ensures forall p :: p in ps <==> p != "" && exists img :: img in images && Doomed(img, blogId, toDelete) && img.image == p
  {
    if images == [] then {}
    else
      var last := images[|images| - 1];
      var rest := DoomedPaths(images[..|images| - 1], blogId, toDelete);
      assert images == images[..|images| - 1] + [last];
      if Doomed(last, blogId, toDelete) && last.image != "" then rest + {last.image} else rest
  }

  /** The deletion step of `BlogUpdateSerializer.update`: each listed picture of
      this blog with a non-empty path is removed from the `media` bucket, then
      the rows are deleted. */
  method DeleteBlogImages(st: Store, images: seq<BlogImage>, blogId: nat, toDelete: seq<int>)
    returns (kept: seq<BlogImage>, st': Store)
    ensures kept == KeptImages(images, blogId, toDelete)
    ensures Objects(st', MediaBucket) == Objects(st, MediaBucket) - DoomedPaths(images, blogId, toDelete)
    ensures forall b :: b != MediaBucket ==> Objects(st', b) == Objects(st, b)
  {
    kept := [];
    st' := st;
    var i := 0;
    while i < |images|
      invariant 0 <= i <= |images|
      invariant kept == KeptImages(images[..i], blogId, toDelete)
      invariant Objects(st', MediaBucket) == Objects(st, MediaBucket) - DoomedPaths(images[..i], blogId, toDelete)
      invariant forall b :: b != MediaBucket ==> Objects(st', b) == Objects(st, b)
    {
      var img := images[i];
      assert images[..i + 1][..i] == images[..i];
      assert images[..i + 1][i] == img;
      if Doomed(img, blogId, toDelete) {
        if img.image != "" {
          st' := DeleteFromBucket(st', MediaBucket, img.image);
        }
      } else {
        kept := kept + [img];
      }
      i := i + 1;
    }
    assert images[..i] == images;
  }

  /** `BlogUpdateSerializer.update`. Absent title or content keep their values;
      the listed pictures of this blog are deleted (bucket first, then rows);
      then each new picture is uploaded and gets a row. */
  method UpdateBlog(
    cfg: Config, st: Store, db: BlogDb, blogId: nat,
    title: Option<string>, content: Option<string>,
    newImages: Option<seq<UploadedFile>>, toDelete: seq<int>, tokens: seq<string>)
    returns (db': BlogDb, st': Store)
    requires blogId in db.blogs
    requires newImages.Some? ==> |tokens| == |newImages.value|
    requires UuidTokens(tokens)
    ensures blogId in db'.blogs
    ensures db'.blogs == db.blogs[blogId := db'.blogs[blogId]]
    ensures db'.blogs[blogId].title == (if title.Some? then title.value else db.blogs[blogId].title)
    ensures db'.blogs[blogId].content == (if content.Some? then content.value else db.blogs[blogId].content)
    ensures db'.blogs[blogId].authorId == db.blogs[blogId].authorId
    ensures var added := if newImages.Some? then |newImages.value| else 0;
      && |db'.images| == |KeptImages(db.images, blogId, toDelete)| + added
      && db'.images[..|KeptImages(db.images, blogId, toDelete)|] == KeptImages(db.images, blogId, toDelete)
    ensures newImages.Some? ==> forall i :: 0 <= i < |newImages.value| ==>
      db'.images[|KeptImages(db.images, blogId, toDelete)| + i]
        == BlogImage(db.nextImageId + i, blogId, UploadPath(BlogsFolder, tokens[i], newImages.value[i].name))
    ensures forall img :: img in db.images && img.blogId != blogId ==> img in db'.images
    ensures MediaBucket != cfg.uploadBucket ==>
              forall img :: img in db.images && Doomed(img, blogId, toDelete) && img.image != "" ==> img.image !in Objects(st', MediaBucket)
    ensures var cleared := Objects(st, MediaBucket) - DoomedPaths(db.images, blogId, toDelete);
      var uploaded := if newImages.Some? then PathSet(BlogPaths(newImages.value, tokens)) else {};
      && (MediaBucket == cfg.uploadBucket ==> Objects(st', MediaBucket) == cleared + uploaded)
      && (MediaBucket != cfg.uploadBucket ==> Objects(st', MediaBucket) == cleared)
      && (MediaBucket != cfg.uploadBucket ==> Objects(st', cfg.uploadBucket) == Objects(st, cfg.uploadBucket) + uploaded)
    ensures forall b :: b != MediaBucket && b != cfg.uploadBucket ==> Objects(st', b) == Objects(st, b)
  {
    var blog := db.blogs[blogId];
    blog := blog.(title := if title.Some? then title.value else blog.title,
                  content := if content.Some? then content.value else blog.content);
    var kept, mid := DeleteBlogImages(st, db.images, blogId, toDelete);
    var rows: seq<BlogImage> := [];
    st' := mid;
    if newImages.Some? {
      rows, st' := UploadBlogImages(cfg, mid, newImages.value, tokens, blogId, db.nextImageId);
    }
    db' := BlogDb(db.blogs[blogId := blog], kept + rows, db.nextBlogId, db.nextImageId + |rows|);
    assert db'.images[..|kept|] == kept;
    assert forall img :: img in kept ==> img in db'.images;
  }

  /** An `InlineImage` row: the bucket path of its picture, if any. */
  datatype InlineImage = InlineImage(id: nat, image: Option<string>, uploadedAt: nat)

  datatype InlineWrite = InlineWrite(image: InlineImage, store: Store)

  /** `InlineImageSerializer.create`: the picture, when given, is uploaded under `blogs`. */
  function CreateInlineImage(cfg: Config, st: Store, id: nat, uploadedAt: nat, image: Option<UploadedFile>, token: string): (w: InlineWrite)
    requires IsUuidText(token)
    ensures w.image.id == id && w.image.uploadedAt == uploadedAt
    ensures image.None? ==> w.image.image == None && w.store == st
    ensures image.Some? ==> w.image.image == Some(UploadPath(BlogsFolder, token, image.value.name))
    ensures image.Some? ==> Objects(w.store, cfg.uploadBucket) == Objects(st, cfg.uploadBucket) + {UploadPath(BlogsFolder, token, image.value.name)}
    ensures forall b :: b != cfg.uploadBucket ==> Objects(w.store, b) == Objects(st, b)
  {
    var created := InlineImage(id, None, uploadedAt);
    match image
    case None => InlineWrite(created, st)
    case Some(f) =>
      var u := UploadFile(cfg, st, f, BlogsFolder, token);
      InlineWrite(created.(image := Some(u.path)), u.store)
  }

  /** `InlineImageSerializer.update`: a new picture replaces the stored path; the
      previous object stays in the bucket. */
  function UpdateInlineImage(cfg: Config, st: Store, img: InlineImage, image: Option<UploadedFile>, token: string): (w: InlineWrite)
    requires IsUuidText(token)
    ensures w.image.id == img.id && w.image.uploadedAt == img.uploadedAt
    ensures image.None? ==> w == InlineWrite(img, st)
    ensures image.Some? ==> w.image.image == Some(UploadPath(BlogsFolder, token, image.value.name))
    ensures image.Some? ==> Objects(w.store, cfg.uploadBucket) == Objects(st, cfg.uploadBucket) + {UploadPath(BlogsFolder, token, image.value.name)}
    ensures forall b :: b != cfg.uploadBucket ==> Objects(w.store, b) == Objects(st, b)
  {
    match image
    case None => InlineWrite(img, st)
    case Some(f) =>
      var u := UploadFile(cfg, st, f, BlogsFolder, token);
      InlineWrite(img.(image := Some(u.path)), u.store)
  }

  /** `InlineImageSerializer.get_url`. */
  function InlineImageUrl(cfg: Config, img: InlineImage): (r: Option<string>)
    ensures r.None? <==> !Truthy(img.image)
    ensures r.Some? ==> PathOfPublicUrl(cfg, r.value) == Some(img.image.value)
  {
    DisplayUrl(cfg, img.image)
  }

  /** An inline image created with a picture shows a URL that leads back to the
      object just uploaded: `blogs/<uuid>_<file name>`. */
  lemma CreatedInlineImageUrl(cfg: Config, st: Store, id: nat, uploadedAt: nat, f: UploadedFile, token: string)
    requires IsUuidText(token)
    ensures var w := CreateInlineImage(cfg, st, id, uploadedAt, Some(f), token);
      && InlineImageUrl(cfg, w.image).Some?
      && var path := PathOfPublicUrl(cfg, InlineImageUrl(cfg, w.image).value).value;
         && SplitUploadPath(path) == Some(PathParts(BlogsFolder, token, f.name))
         && path in Objects(w.store, cfg.uploadBucket)
  {
    UploadPathRoundTrip(BlogsFolder, token, f.name);
  }

  /** Replacing the picture of an inline image that came from an earlier upload
      (another uuid) leaves the earlier object in the bucket while the row no
      longer refers to it. */
  lemma UpdateInlineImageOrphans(cfg: Config, st: Store, img: InlineImage, f: UploadedFile, token: string,
                                 earlierToken: string, earlierName: string)
    requires IsUuidText(token) && IsUuidText(earlierToken) && earlierToken != token
    requires img.image == Some(UploadPath(BlogsFolder, earlierToken, earlierName))
    requires img.image.value in Objects(st, cfg.uploadBucket)
    ensures var w := UpdateInlineImage(cfg, st, img, Some(f), token);
      && img.image.value in Objects(w.store, cfg.uploadBucket)
      && w.image.image != img.image
  {
    UploadPathsDistinct(BlogsFolder, token, earlierToken, f.name, earlierName);
  }
}

=== FILE: common.dfy ===
/** Shared result shapes: an optional value (Python's None) and the outcome of a
    validation or request that either yields a value or fails with a message. */
module Common {

  /** Python's `None` versus a present value. */
  datatype Option<+T> = None | Some(value: T)

  /** The outcome of a validator or a request handler: a value, or the error
      message a `ValidationError` (or an HTTP 400) would carry. */
  datatype Result<+T> = Ok(value: T) | Err(message: string)

  /** Python truthiness of an optional string: `None` and `""` are falsy. */
  predicate Truthy(s: Option<string>) {
    s.Some? && s.value != ""
  }

  /** The elements of `s` that satisfy `keep`, in their order (a queryset `filter`). */
  function Filter<T(!new)>(s: seq<T>, keep: T -> bool): (r: seq<T>)
    ensures |r| <= |s|
    ensures forall x :: x in r <==> x in s && keep(x)
    ensures forall i :: 0 <= i < |r| ==> keep(r[i])
  {
    if s == [] then []
    else if keep(s[0]) then [s[0]] + Filter(s[1..], keep)
    else Filter(s[1..], keep)
  }

  /** Filtering keeps everything exactly when every element passes. */
  lemma {:induction false} FilterAll<T(!new)>(s: seq<T>, keep: T -> bool)
    requires forall i :: 0 <= i < |s| ==> keep(s[i])
    ensures Filter(s, keep) == s
  {
    if s != [] {
      FilterAll(s[1..], keep);
    }
  }
}

=== FILE: endpoints.dfy ===
/** The endpoint access table of `backend/api/views/event.py` and
    `backend/api/views/bill.py`: for each view, its permission class, the
    methods its generic base class handles, and the serializer class it picks
    for a request method. Dispatch follows Django REST framework's order: the
    permission check runs first, then the method lookup (405 for a method the
    view does not handle), and HEAD runs the GET handler with the request
    method still HEAD. */
module Endpoints {
  import opened Common
  import opened Permissions
  import opened Text

  datatype Endpoint =
    | EventList                 // EventListCreateView
    | EventDetail               // EventDetailView
    | EventTypeList             // EventTypeListCreateView
    | RegistrationStatusUpdate  // RegistrationStatusUpdateView
    | RegistrationList          // EventRegistrationListCreateView
    | RegistrationDetail        // EventRegistrationDetailView
    | RegistrationDelete        // EventRegistrationDeleteView
    | BillList                  // BillListCreateView
    | BillDetail                // BillRUDView

  predicate IsBillEndpoint(e: Endpoint) {
    e == BillList || e == BillDetail
  }

  /** The handler a generic view runs. */
  datatype Action = List | Create | Retrieve | Update | PartialUpdate | Destroy | Options

  datatype Serializer =
    | EventRead | EventWrite | EventTypeSer | RegistrationStatusSer
    | RegistrationRead | RegistrationCreate | BillRead | BillWrite

  /** The handler for a method, or `None` when the view answers 405. */
  function Handler(e: Endpoint, m: HttpMethod): (a: Option<Action>)
    ensures m == TRACE ==> a.None?
    ensures a == Some(Create) ==> m == POST
    ensures a == Some(Destroy) ==> m == DELETE
    ensures e == RegistrationStatusUpdate ==> (a.Some? <==> m == PATCH)
    ensures e == RegistrationDetail ==> (a.Some? <==> IsSafe(m))
  {
    match e
    case EventList | EventTypeList | RegistrationList | BillList =>
      // ListCreateAPIView
      (match m
       case GET | HEAD => Some(List)
       case POST => Some(Create)
       case OPTIONS => Some(Options)
       case _ => None)
    case EventDetail | BillDetail =>
      // RetrieveUpdateDestroyAPIView
      (match m
       case GET | HEAD => Some(Retrieve)
       case PUT => Some(Update)
       case PATCH => Some(PartialUpdate)
       case DELETE => Some(Destroy)
       case OPTIONS => Some(Options)
       case _ => None)
    case RegistrationStatusUpdate =>
      // UpdateAPIView restricted to http_method_names = ['patch']
      if m == PATCH then Some(PartialUpdate) else None
    case RegistrationDetail =>
      // RetrieveAPIView
      (match m
       case GET | HEAD => Some(Retrieve)
       case OPTIONS => Some(Options)
       case _ => None)
    case RegistrationDelete =>
      // DestroyAPIView
      (match m
       case DELETE => Some(Destroy)
       case OPTIONS => Some(Options)
       case _ => None)
  }

  /** `get_serializer_class` as seen with request method `m`; `None` for the
      delete view, which declares no serializer class. */
  function SerializerFor(e: Endpoint, m: HttpMethod): (s: Option<Serializer>)
    ensures (e == EventList || e == BillList) ==> s.Some? && (s.value in {EventWrite, BillWrite} <==> m == POST)
    ensures (e == EventDetail || e == BillDetail) ==> s.Some? && (s.value in {EventWrite, BillWrite} <==> m == PUT || m == PATCH)
    ensures e == RegistrationList ==> s.Some? && (s.value == RegistrationRead <==> m == GET)
    ensures IsBillEndpoint(e) ==> s.Some? && s.value in {BillRead, BillWrite}
    ensures s.None? <==> e == RegistrationDelete
  {
    match e
    case EventList => Some(if m == POST then EventWrite else EventRead)
    case EventDetail => Some(if m == PUT || m == PATCH then EventWrite else EventRead)
    case EventTypeList => Some(EventTypeSer)
    case RegistrationStatusUpdate => Some(RegistrationStatusSer)
    case RegistrationList => Some(if m == GET then RegistrationRead else RegistrationCreate)
    case RegistrationDetail => Some(RegistrationRead)
    case RegistrationDelete => None
    case BillList => Some(if m == POST then BillWrite else BillRead)
    case BillDetail => Some(if m == PUT || m == PATCH then BillWrite else BillRead)
  }

  /** The view's permission class. `adminOrLeadOrReadOnly` is the verdict of
      `IsAdminOrLeadOrReadOnly`, which is not part of this model. `IsLeadOrAdmin`
      is taken in its intended reading, LEAD or ADMIN accounts only;
      `WrittenLeadOrAdminGate` states what the class as written admits. */
  function Gate(e: Endpoint, u: RequestUser, adminOrLeadOrReadOnly: bool): (c: Check)
    ensures IsBillEndpoint(e) ==> c == IsTreasurer(u)
    ensures (e == RegistrationStatusUpdate || e == RegistrationDelete) ==> (c == Allow <==> IsLead(u) || IsAdmin(u))
    ensures (e == RegistrationList || e == RegistrationDetail) ==> c == Allow
    ensures (e == EventList || e == EventDetail || e == EventTypeList) ==> (c == Allow <==> adminOrLeadOrReadOnly)
    ensures !IsBillEndpoint(e) ==> !c.Fault?
  {
    match e
    case EventList | EventDetail | EventTypeList => if adminOrLeadOrReadOnly then Allow else Deny
    case RegistrationStatusUpdate | RegistrationDelete => if IsLeadOrAdminIntended(u) then Allow else Deny
    case RegistrationList | RegistrationDetail => Allow
    case BillList | BillDetail => IsTreasurer(u)
  }

  /** The outcome of one request. */
  datatype Reply =
    | Denied
    | Faulted(reason: string)
    | MethodNotAllowed
    | Metadata
    | Handled(action: Action, serializer: Option<Serializer>)

  /** One request to a view: permission first, then the method. A destroy uses
      no serializer. */
  function Dispatch(e: Endpoint, u: RequestUser, m: HttpMethod, adminOrLeadOrReadOnly: bool): (r: Reply)
    ensures r == Denied <==> Gate(e, u, adminOrLeadOrReadOnly) == Deny
    ensures r.Faulted? <==> Gate(e, u, adminOrLeadOrReadOnly).Fault?
    ensures r == MethodNotAllowed <==> Gate(e, u, adminOrLeadOrReadOnly) == Allow && Handler(e, m).None?
    ensures r == Metadata <==> Gate(e, u, adminOrLeadOrReadOnly) == Allow && Handler(e, m) == Some(Options)
    ensures r.Handled? ==> Handler(e, m) == Some(r.action)
    ensures r.Handled? && r.action != Destroy ==> r.serializer == SerializerFor(e, m)
    ensures r.Handled? && r.action == Destroy ==> r.serializer.None?
  {
    match Gate(e, u, adminOrLeadOrReadOnly)
    case Deny => Denied
    case Fault(reason) => Faulted(reason)
    case Allow =>
      match Handler(e, m)
      case None => MethodNotAllowed
      case Some(Options) => Metadata
      case Some(Destroy) => Handled(Destroy, None)
      case Some(a) => Handled(a, SerializerFor(e, m))
  }

  /** Whether a request reaches a handler of the view. */
  predicate Reaches(r: Reply) {
    r.Metadata? || r.Handled?
  }

  /** No bill endpoint is reachable, with any method, by a user `IsTreasurer`
      does not allow; one it allows reaches every handled method. */
  lemma BillEndpointsNeedTreasurer(e: Endpoint, u: RequestUser, m: HttpMethod, g: bool)
    requires IsBillEndpoint(e)
    ensures Reaches(Dispatch(e, u, m, g)) <==> IsTreasurer(u) == Allow && Handler(e, m).Some?
    ensures Reaches(Dispatch(e, u, m, g)) ==> u.Account? && u.student.Some? && Upper(u.student.value.title) == Treasurer
  {
  }

  /** A request refused by the permission never learns whether the method is
      handled: even TRACE is answered as denied. */
  lemma PermissionBeforeMethod(e: Endpoint, u: RequestUser, m: HttpMethod, g: bool)
    requires Gate(e, u, g) != Allow
    ensures Dispatch(e, u, m, g) != MethodNotAllowed
    ensures Dispatch(e, u, m, g) == Dispatch(e, u, GET, g)
  {
  }

  /** The status-update view runs only for PATCH, and only for LEAD and ADMIN
      accounts. */
  lemma StatusUpdateOnlyPatch(u: RequestUser, m: HttpMethod, g: bool)
    ensures Reaches(Dispatch(RegistrationStatusUpdate, u, m, g)) <==> m == PATCH && (IsLead(u) || IsAdmin(u))
    ensures m == PATCH && (IsLead(u) || IsAdmin(u)) ==>
      Dispatch(RegistrationStatusUpdate, u, m, g) == Handled(PartialUpdate, Some(RegistrationStatusSer))
  {
  }

  /** Deleting a registration is for LEAD and ADMIN accounts; everyone else,
      anonymous users included, is refused. */
  lemma RegistrationDeleteStaffOnly(u: RequestUser, g: bool)
    ensures IsLead(u) || IsAdmin(u) ==> Dispatch(RegistrationDelete, u, DELETE, g) == Handled(Destroy, None)
    ensures !IsLead(u) && !IsAdmin(u) ==> Dispatch(RegistrationDelete, u, DELETE, g) == Denied
  {
  }

  /** On the two views behind `IsLeadOrAdmin`, the class as written lets
      through every user the gate admits and, beyond them, every other account:
      a STUDENT account is admitted as written and refused by the gate. */
  lemma WrittenLeadOrAdminGate(e: Endpoint, u: RequestUser, g: bool)
    requires e == RegistrationStatusUpdate || e == RegistrationDelete
    ensures Gate(e, u, g) == Allow ==> IsLeadOrAdmin(u)
    ensures IsLeadOrAdmin(u) && Gate(e, u, g) != Allow <==> u.Account? && u.role != Lead && u.role != Admin
    ensures u.Account? && u.role == StudentRole ==> IsLeadOrAdmin(u) && Dispatch(e, u, DELETE, g) == Denied
  {
    LeadOrAdminAgreesOnStaff(u);
  }

  /** Registration list and detail are open to everyone; the list runs the read
      serializer only for GET, so HEAD lists with the create serializer. */
  lemma RegistrationListSerializers(u: RequestUser, g: bool)
    ensures Dispatch(RegistrationList, u, GET, g) == Handled(List, Some(RegistrationRead))
    ensures Dispatch(RegistrationList, u, HEAD, g) == Handled(List, Some(RegistrationCreate))
    ensures Dispatch(RegistrationList, u, POST, g) == Handled(Create, Some(RegistrationCreate))
    ensures Dispatch(RegistrationDetail, u, GET, g) == Handled(Retrieve, Some(RegistrationRead))
    ensures Dispatch(RegistrationDetail, u, POST, g) == MethodNotAllowed
  {
  }

  /** On the event and bill views, a handler uses the write serializer exactly
      when it creates or updates. */
  lemma WriteSerializerIffWriting(e: Endpoint, u: RequestUser, m: HttpMethod, g: bool)
    requires e in {EventList, EventDetail, BillList, BillDetail}
    requires Dispatch(e, u, m, g).Handled?
    ensures Dispatch(e, u, m, g).serializer.Some? ==>
      (Dispatch(e, u, m, g).serializer.value in {EventWrite, BillWrite} <==> Dispatch(e, u, m, g).action in {Create, Update, PartialUpdate})
  {
  }
}

=== FILE: event_model.dfy ===
/** The records of `backend/api/models/event.py`: events, registrations and their
    participants, with the choice enums, field bounds and defaults the model
    declares. Dates and times are day and minute numbers. */
module EventModel {
  import opened Common
  import opened Text
  import Storage

  /** `RegistrationType`. */
  datatype RegistrationType = SINGLE | TEAM

  /** `RegistrationStatus`. */
  datatype RegistrationStatus = PENDING | COMPLETED | CANCELLED

  /** The status a new registration is stored with. */
  const DefaultStatus := PENDING

  /** `Event.total_seats` when none is given. */
  const DefaultTotalSeats: nat := 0

  function RegistrationTypeText(t: RegistrationType): string {
    match t
    case SINGLE => "SINGLE"
    case TEAM => "TEAM"
  }

  /** The choice check of `registration_type`: only the two stored values are accepted. */
  function ParseRegistrationType(s: string): (r: Option<RegistrationType>)
    ensures r.Some? <==> s == "SINGLE" || s == "TEAM"
    ensures r.Some? ==> RegistrationTypeText(r.value) == s
  {
    if s == "SINGLE" then Some(SINGLE) else if s == "TEAM" then Some(TEAM) else None
  }

  lemma RegistrationTypeRoundTrip(t: RegistrationType)
    ensures ParseRegistrationType(RegistrationTypeText(t)) == Some(t)
  {
  }

  function RegistrationStatusText(s: RegistrationStatus): string {
    match s
    case PENDING => "PENDING"
    case COMPLETED => "COMPLETED"
    case CANCELLED => "CANCELLED"
  }

  /** The choice check of `status`: only the three stored values are accepted. */
  function ParseRegistrationStatus(s: string): (r: Option<RegistrationStatus>)
    ensures r.Some? <==> s == "PENDING" || s == "COMPLETED" || s == "CANCELLED"
    ensures r.Some? ==> RegistrationStatusText(r.value) == s
  {
    if s == "PENDING" then Some(PENDING)
    else if s == "COMPLETED" then Some(COMPLETED)
    else if s == "CANCELLED" then Some(CANCELLED)
    else None
  }

  lemma RegistrationStatusRoundTrip(s: RegistrationStatus)
    ensures ParseRegistrationStatus(RegistrationStatusText(s)) == Some(s)
  {
  }

  /** `EventType.save`: a non-empty type name is stored upper-cased. */
  function SaveEventType(t: string): (r: string)
    ensures |r| == |t|
    ensures r == "" <==> t == ""
    ensures forall i :: 0 <= i < |r| ==> !IsLowerAscii(r[i])
    ensures forall i :: 0 <= i < |t| && !IsLowerAscii(t[i]) ==> r[i] == t[i]
    ensures forall i :: 0 <= i < |t| && IsLowerAscii(t[i]) ==> r[i] as int == t[i] as int - 32
  {
    if t != "" then Upper(t) else t
  }

  /** Saving an event type a second time changes nothing. */
  lemma SaveEventTypeIdempotent(t: string)
    ensures SaveEventType(SaveEventType(t)) == SaveEventType(t)
  {
    UpperIdempotent(t);
  }

  /** The writable columns of `Event` other than `image`. */
  datatype EventFields = EventFields(
    eventTypeId: Option<nat>,
    title: string,
    description: string,
    content: string,
    date: nat,
    timeFrom: nat,
    timeTo: nat,
    location: string,
    totalSeats: nat,
    tags: Option<seq<string>>,
    hosts: Option<seq<string>>)

  /** An `Event` row; `image` is the bucket path of its picture (nullable). */
  datatype Event = Event(id: nat, fields: EventFields, image: Option<string>)

  predicate AllAtMost(items: Option<seq<string>>, bound: nat) {
    items.None? || forall i :: 0 <= i < |items.value| ==> |items.value[i]| <= bound
  }

  /** `Event.image` is a `CharField(max_length=255)`: a longer path makes the
      database refuse the save. */
  const ImageColumnLength := 255

  /** The longest picture file name whose upload path still fits the column:
      `events/`, the uuid and the underscore take 44 characters. */
  const LongestImageName := 211

  /** The `max_length` bounds `Event` declares on its columns. */
  predicate EventWithinBounds(e: Event) {
    && |e.fields.title| <= 200
    && |e.fields.description| <= 500
    && |e.fields.location| <= 200
    && (e.image.None? || |e.image.value| <= ImageColumnLength)
    && AllAtMost(e.fields.tags, 25)
    && AllAtMost(e.fields.hosts, 30)
  }

  /** The names of the `Event` columns whose `max_length` is exceeded. */
  function EventBoundErrors(e: Event): (errs: seq<string>)
    ensures errs == [] <==> EventWithinBounds(e)
    ensures "title" in errs <==> |e.fields.title| > 200
    ensures "description" in errs <==> |e.fields.description| > 500
    ensures "location" in errs <==> |e.fields.location| > 200
  {
    (if |e.fields.title| > 200 then ["title"] else [])
    + (if |e.fields.description| > 500 then ["description"] else [])
    + (if |e.fields.location| > 200 then ["location"] else [])
    + (if e.image.Some? && |e.image.value| > ImageColumnLength then ["image"] else [])
    + (if !AllAtMost(e.fields.tags, 25) then ["tags"] else [])
    + (if !AllAtMost(e.fields.hosts, 30) then ["hosts"] else [])
  }

  /** `event_image_upload_path(instance, filename)`, the `upload_to` of
      `EventImage.image`: `events/<id>/<filename>`, where the id is the
      `EventImage` row's own and is `None` while the row is not yet saved. */
  function EventImageUploadPath(imageId: Option<nat>, filename: string): (p: string)
    ensures "events/" <= p
    ensures imageId.None? ==> p == "events" + "/None/" + filename
    ensures Storage.SplitModelUploadPath(p) == Some(Storage.ModelPathParts("events", imageId, filename))
  {
    Storage.ModelUploadPathRoundTrip("events", imageId, filename);
    Storage.ModelUploadPathShape("events", imageId, filename);
    Storage.ModelUploadPath("events", imageId, filename)
  }

  /** An `EventRegistration` row. */
  datatype Registration = Registration(
    id: nat,
    eventId: nat,
    regType: RegistrationType,
    teamName: Option<string>,
    status: RegistrationStatus)

  /** The participant columns a registration request carries. */
  datatype ParticipantInfo = ParticipantInfo(
    name: string,
    email: string,
    regNo: string,
    currentSemester: nat,
    department: string,
    phoneNo: string)

  /** An `EventParticipant` row, linked to its registration. */
  datatype Participant = Participant(id: nat, registrationId: nat, info: ParticipantInfo)

  /** The bounds `EventRegistration` declares: `team_name` is optional and at most 100 long. */
  predicate RegistrationWithinBounds(r: Registration) {
    r.teamName.None? || |r.teamName.value| <= 100
  }

  /** The bounds `EventParticipant` declares on its columns; `current_semester`
      is a positive small integer (0 to 32767). */
  predicate ParticipantWithinBounds(p: ParticipantInfo) {
    && |p.name| <= 100
    && |p.regNo| <= 30
    && p.currentSemester <= 32767
    && |p.department| <= 100
    && |p.phoneNo| <= 20
  }
}

=== FILE: event_serializers.dfy ===
/** The rules of `backend/api/serializers/event.py`: admission of an event
    registration against the seat limit, its atomic creation together with its
    participants, the displayed registration count, and the event write
    serializer's handling of the event picture. The tables are sequences of
    rows; creation is one step, so the race between the count in `validate` and
    the insert in `create` is not part of this model. */
module EventSerializers {
  import opened Common
  import opened Storage
  import opened EventModel
  import opened Text

  const NoSeatsMessage := "No seats available for this event."
  const SingleSizeMessage := "Single registration must have " + "exactly one participant."

  /** The event, registration and participant tables, with the next free ids. */
  datatype EventDb = EventDb(
    events: map<nat, Event>,
    registrations: seq<Registration>,
    participants: seq<Participant>,
    nextRegistrationId: nat,
    nextParticipantId: nat)

  predicate HasRegistration(regs: seq<Registration>, id: nat) {
    exists j :: 0 <= j < |regs| && regs[j].id == id
  }

  /** Ids are below the next free id, and every participant belongs to a stored
      registration. */
  predicate ValidDb(db: EventDb) {
    && (forall i :: 0 <= i < |db.registrations| ==> db.registrations[i].id < db.nextRegistrationId)
    && (forall i :: 0 <= i < |db.participants| ==> db.participants[i].id < db.nextParticipantId)
    && (forall i :: 0 <= i < |db.participants| ==> HasRegistration(db.registrations, db.participants[i].registrationId))
  }

  /** `event.registrations.count()`: the event's registrations of every status. */
  function AdmissionCount(regs: seq<Registration>, eventId: nat): nat {
    if regs == [] then 0
    else (if regs[0].eventId == eventId then 1 else 0) + AdmissionCount(regs[1..], eventId)
  }

  /** The registrations of the event that are not CANCELLED. */
  function ActiveCount(regs: seq<Registration>, eventId: nat): nat {
    if regs == [] then 0
    else
      var here := if regs[0].eventId == eventId && regs[0].status != CANCELLED then 1 else 0;
      here + ActiveCount(regs[1..], eventId)
  }

  /** The registrations of the event that are CANCELLED. */
  function CancelledCount(regs: seq<Registration>, eventId: nat): nat {
    if regs == [] then 0
    else
      var here := if regs[0].eventId == eventId && regs[0].status == CANCELLED then 1 else 0;
      here + CancelledCount(regs[1..], eventId)
  }

  /** Each registration of the event is counted as active or as cancelled, never both. */
  lemma {:induction false} ActivePlusCancelled(regs: seq<Registration>, eventId: nat)
    ensures ActiveCount(regs, eventId) + CancelledCount(regs, eventId) == AdmissionCount(regs, eventId)
  {
    if regs != [] {
      ActivePlusCancelled(regs[1..], eventId);
    }
  }

  /** The queryset filter `event=eventId` with `status=CANCELLED` excluded. */
  function ActiveFor(eventId: nat): Registration -> bool {
    (r: Registration) => r.eventId == eventId && r.status != CANCELLED
  }

  /** The active count is the size of that filtered queryset. */
  lemma {:induction false} ActiveCountIsFilter(regs: seq<Registration>, eventId: nat)
    ensures ActiveCount(regs, eventId) == |Filter(regs, ActiveFor(eventId))|
  {
    if regs != [] {
      ActiveCountIsFilter(regs[1..], eventId);
    }
  }

  lemma {:induction false} AdmissionCountAppend(regs: seq<Registration>, r: Registration, eventId: nat)
    ensures AdmissionCount(regs + [r], eventId)
         == AdmissionCount(regs, eventId) + (if r.eventId == eventId then 1 else 0)
  {
    if regs != [] {
      assert (regs + [r])[1..] == regs[1..] + [r];
      AdmissionCountAppend(regs[1..], r, eventId);
    }
  }

  /** `EventSerializer.get_registration_count`: what the event listing shows,
      the event's registrations that are not CANCELLED. Together with the
      cancelled ones it makes up the count the seat check uses. */
  function RegistrationCount(db: EventDb, eventId: nat): (n: nat)
    ensures n == |Filter(db.registrations, ActiveFor(eventId))|
    ensures n + CancelledCount(db.registrations, eventId) == AdmissionCount(db.registrations, eventId)
    ensures n <= AdmissionCount(db.registrations, eventId)
  {
    ActivePlusCancelled(db.registrations, eventId);
    ActiveCountIsFilter(db.registrations, eventId);
    ActiveCount(db.registrations, eventId)
  }

  /** A registration request after field validation. */
  datatype RegistrationRequest = RegistrationRequest(
    eventId: nat,
    regType: RegistrationType,
    teamName: Option<string>,
    participants: seq<ParticipantInfo>)

  /** The error of the `event` related field when the key names no event; it
      quotes the key and differs from the messages of `validate`. */
  function MissingPkMessage(pk: nat): (m: string)
    ensures "Invalid pk \"" <= m
    ensures m != NoSeatsMessage && m != SingleSizeMessage
  {
    var m := "Invalid pk \"" + DecimalOf(pk) + "\" - object does not exist.";
    assert m[0] == 'I' && NoSeatsMessage[0] == 'N' && SingleSizeMessage[0] == 'S';
    m
  }

  /** `EventRegistrationCreateSerializer.validate`, preceded by the lookup of the
      `event` primary key that the related field performs. */
  function ValidateRegistration(db: EventDb, req: RegistrationRequest): (r: Result<RegistrationRequest>)
    ensures r.Ok? ==> r.value == req
    ensures r.Ok? <==>
      && req.eventId in db.events
      && AdmissionCount(db.registrations, req.eventId) < db.events[req.eventId].fields.totalSeats
      && (req.regType == SINGLE ==> |req.participants| == 1)
    ensures req.eventId in db.events
      && AdmissionCount(db.registrations, req.eventId) >= db.events[req.eventId].fields.totalSeats
      ==> r == Err(NoSeatsMessage)
    ensures req.eventId !in db.events ==> r == Err(MissingPkMessage(req.eventId))
    ensures req.regType == TEAM && r.Err? ==> r != Err(SingleSizeMessage)
  {
    if req.eventId !in db.events then
      Err(MissingPkMessage(req.eventId))
    else if AdmissionCount(db.registrations, req.eventId) >= db.events[req.eventId].fields.totalSeats then
      Err(NoSeatsMessage)
    else if req.regType == SINGLE && |req.participants| != 1 then
      Err(SingleSizeMessage)
    else
      Ok(req)
  }

  /** The participant rows stored for a registration, numbered from `firstId`. */
  function LinkParticipants(infos: seq<ParticipantInfo>, registrationId: nat, firstId: nat): (ps: seq<Participant>)
    ensures |ps| == |infos|
    ensures forall i :: 0 <= i < |ps| ==> ps[i].registrationId == registrationId && ps[i].info == infos[i]
    ensures forall i :: 0 <= i < |ps| ==> firstId <= ps[i].id < firstId + |infos|
  {
    seq(|infos|, i requires 0 <= i < |infos| => Participant(firstId + i, registrationId, infos[i]))
  }

  datatype Created = Created(db: EventDb, registration: Registration)

  /** What field validation guarantees of a request: the team name and every
      participant keep the `max_length` and range bounds of their columns. */
  predicate RequestWithinBounds(req: RegistrationRequest) {
    && (req.teamName.None? || |req.teamName.value| <= 100)
    && forall i :: 0 <= i < |req.participants| ==> ParticipantWithinBounds(req.participants[i])
  }

  /** Every stored registration and participant keeps its columns' bounds. */
  predicate DbWithinBounds(db: EventDb) {
    && (forall i :: 0 <= i < |db.registrations| ==> RegistrationWithinBounds(db.registrations[i]))
    && (forall i :: 0 <= i < |db.participants| ==> ParticipantWithinBounds(db.participants[i].info))
  }

  /** `EventRegistrationCreateSerializer.create`: one registration (status
      PENDING) and all of its participants are stored together. */
  function CreateRegistration(db: EventDb, req: RegistrationRequest): (c: Created)
    ensures c.registration.id == db.nextRegistrationId
    ensures c.registration.eventId == req.eventId && c.registration.regType == req.regType
    ensures c.registration.teamName == req.teamName && c.registration.status == DefaultStatus
    ensures c.db.events == db.events
    ensures c.db.registrations == db.registrations + [c.registration]
    ensures |c.db.participants| == |db.participants| + |req.participants|
    ensures c.db.participants[..|db.participants|] == db.participants
    ensures forall i :: 0 <= i < |req.participants| ==>
      c.db.participants[|db.participants| + i].registrationId == c.registration.id
      && c.db.participants[|db.participants| + i].info == req.participants[i]
    ensures ValidDb(db) ==> ValidDb(c.db) && !HasRegistration(db.registrations, c.registration.id)
    ensures DbWithinBounds(db) && RequestWithinBounds(req) ==> DbWithinBounds(c.db)
  {
    var reg := Registration(db.nextRegistrationId, req.eventId, req.regType, req.teamName, DefaultStatus);
    var linked := LinkParticipants(req.participants, reg.id, db.nextParticipantId);
    var db' := EventDb(
      db.events,
      db.registrations + [reg],
      db.participants + linked,
      db.nextRegistrationId + 1,
      db.nextParticipantId + |req.participants|);
    assert db'.participants[..|db.participants|] == db.participants;
    assert HasRegistration(db'.registrations, reg.id) by {
      assert db'.registrations[|db.registrations|] == reg;
    }
    assert forall id :: HasRegistration(db.registrations, id) ==> HasRegistration(db'.registrations, id) by {
      forall id | HasRegistration(db.registrations, id)
        ensures HasRegistration(db'.registrations, id)
      {
        var j :| 0 <= j < |db.registrations| && db.registrations[j].id == id;
        assert db'.registrations[j] == db.registrations[j];
      }
    }
    Created(db', reg)
  }

  /** A registration attempt: validation, then creation. A failed attempt stores
      nothing. */
  function Register(db: EventDb, req: RegistrationRequest): (r: Result<Created>)
    ensures r.Ok? <==> ValidateRegistration(db, req).Ok?
    ensures r.Err? ==> r.message == ValidateRegistration(db, req).message
    ensures r.Ok? ==> r.value == CreateRegistration(db, req)
    ensures r.Ok? ==>
      AdmissionCount(r.value.db.registrations, req.eventId) == AdmissionCount(db.registrations, req.eventId) + 1
      <= db.events[req.eventId].fields.totalSeats
  {
    match ValidateRegistration(db, req)
    case Err(msg) => Err(msg)
    case Ok(_) =>
      var c := CreateRegistration(db, req);
      AdmissionCountAppend(db.registrations, c.registration, req.eventId);
      Ok(c)
  }

  /** No event holds more registrations, of any status, than it has seats. */
  predicate WithinCapacity(db: EventDb) {
    forall eid :: eid in db.events ==> AdmissionCount(db.registrations, eid) <= db.events[eid].fields.totalSeats
  }

  /** Sequential registration attempts keep every event within its seats. */
  lemma {:induction false} RegisterKeepsCapacity(db: EventDb, req: RegistrationRequest)
    requires WithinCapacity(db)
    requires Register(db, req).Ok?
    ensures WithinCapacity(Register(db, req).value.db)
  {
    var c := Register(db, req).value;
    forall eid | eid in c.db.events
      ensures AdmissionCount(c.db.registrations, eid) <= c.db.events[eid].fields.totalSeats
    {
      AdmissionCountAppend(db.registrations, c.registration, eid);
    }
  }

  /** Within capacity, the displayed count of an event never exceeds its seats. */
  lemma DisplayedCountWithinSeats(db: EventDb, eventId: nat)
    requires WithinCapacity(db)
    requires eventId in db.events
    ensures RegistrationCount(db, eventId) <= db.events[eventId].fields.totalSeats
  {
  }

  /** An event left at the default of zero seats admits no registration at all. */
  lemma DefaultSeatsAdmitNobody(db: EventDb, req: RegistrationRequest)
    requires req.eventId in db.events
    requires db.events[req.eventId].fields.totalSeats == DefaultTotalSeats
    ensures Register(db, req) == Err(NoSeatsMessage)
  {
  }

  /** `RegistrationStatusUpdateSerializer`: sets the status of the registration with this id. */
  function UpdateRegistrationStatus(db: EventDb, id: nat, status: RegistrationStatus): (db': EventDb)
    ensures |db'.registrations| == |db.registrations|
    ensures forall i :: 0 <= i < |db.registrations| ==>
      db'.registrations[i] == (if db.registrations[i].id == id then db.registrations[i].(status := status) else db.registrations[i])
    ensures db'.events == db.events && db'.participants == db.participants
  {
    db.(registrations := seq(|db.registrations|, i requires 0 <= i < |db.registrations| =>
      if db.registrations[i].id == id then db.registrations[i].(status := status) else db.registrations[i]))
  }

  lemma {:induction false} StatusChangeKeepsAdmissionCount(regs: seq<Registration>, regs': seq<Registration>, eventId: nat)
    requires |regs'| == |regs|
    requires forall i :: 0 <= i < |regs| ==> regs'[i].eventId == regs[i].eventId
    ensures AdmissionCount(regs', eventId) == AdmissionCount(regs, eventId)
  {
    if regs != [] {
      StatusChangeKeepsAdmissionCount(regs[1..], regs'[1..], eventId);
    }
  }

  /** Cancelling a registration frees no seat: the seat check still counts it. */
  lemma CancelledStillOccupiesSeat(db: EventDb, id: nat, req: RegistrationRequest)
    ensures forall eid :: AdmissionCount(UpdateRegistrationStatus(db, id, CANCELLED).registrations, eid)
                       == AdmissionCount(db.registrations, eid)
    ensures Register(UpdateRegistrationStatus(db, id, CANCELLED), req).Ok? ==> Register(db, req).Ok?
  {
    var db' := UpdateRegistrationStatus(db, id, CANCELLED);
    forall eid
      ensures AdmissionCount(db'.registrations, eid) == AdmissionCount(db.registrations, eid)
    {
      StatusChangeKeepsAdmissionCount(db.registrations, db'.registrations, eid);
    }
  }

  /** An event row as the database then holds it, the store afterwards, and
      whether the final `save` succeeded. When it fails (the request ends in a
      server error) the uploaded object stays in the bucket. */
  datatype EventWrite = EventWrite(event: Event, store: Store, saved: bool)

  /** `EventWriteSerializer.create`: the row is created without a picture; when a
      picture is supplied it is uploaded under `events` and its path saved,
      which fails when the path is longer than the `image` column. */
  function CreateEvent(cfg: Config, st: Store, id: nat, fields: EventFields, image: Option<UploadedFile>, token: string): (w: EventWrite)
    requires IsUuidText(token)
    ensures w.event.id == id && w.event.fields == fields
    ensures w.saved <==> image.None? || |image.value.name| <= LongestImageName
    ensures image.None? ==> w.event.image == None && w.store == st
    ensures image.Some? && w.saved ==>
              && w.event.image == Some(UploadPath("events", token, image.value.name))
              && SplitUploadPath(w.event.image.value) == Some(PathParts("events", token, image.value.name))
    ensures !w.saved ==> w.event.image == None
    ensures image.Some? ==> Objects(w.store, cfg.uploadBucket) == Objects(st, cfg.uploadBucket) + {UploadPath("events", token, image.value.name)}
    ensures forall b :: b != cfg.uploadBucket ==> Objects(w.store, b) == Objects(st, b)
    ensures EventWithinBounds(Event(id, fields, None)) ==> EventWithinBounds(w.event)
  {
    var created := Event(id, fields, None);
    match image
    case None => EventWrite(created, st, true)
    case Some(f) =>
      var u := UploadFile(cfg, st, f, "events", token);
      UploadPathRoundTrip("events", token, f.name);
      if |u.path| <= ImageColumnLength then EventWrite(created.(image := Some(u.path)), u.store, true)
      else EventWrite(created, u.store, false)
  }

  /** The fields an update request supplies; `None` for an absent key. */
  datatype EventPatch = EventPatch(
    eventTypeId: Option<Option<nat>>,
    title: Option<string>,
    description: Option<string>,
    content: Option<string>,
    date: Option<nat>,
    timeFrom: Option<nat>,
    timeTo: Option<nat>,
    location: Option<string>,
    totalSeats: Option<nat>,
    tags: Option<Option<seq<string>>>,
    hosts: Option<Option<seq<string>>>)

  function Pick<T>(supplied: Option<T>, current: T): T {
    if supplied.Some? then supplied.value else current
  }

  /** The `setattr` loop of `EventWriteSerializer.update`. */
  function ApplyEventPatch(f: EventFields, p: EventPatch): (r: EventFields)
    ensures p.eventTypeId.Some? ==> r.eventTypeId == p.eventTypeId.value
    ensures p.eventTypeId.None? ==> r.eventTypeId == f.eventTypeId
    ensures p.title.Some? ==> r.title == p.title.value
    ensures p.title.None? ==> r.title == f.title
    ensures p.description.Some? ==> r.description == p.description.value
    ensures p.description.None? ==> r.description == f.description
    ensures p.content.Some? ==> r.content == p.content.value
    ensures p.content.None? ==> r.content == f.content
    ensures p.date.Some? ==> r.date == p.date.value
    ensures p.date.None? ==> r.date == f.date
    ensures p.timeFrom.Some? ==> r.timeFrom == p.timeFrom.value
    ensures p.timeFrom.None? ==> r.timeFrom == f.timeFrom
    ensures p.timeTo.Some? ==> r.timeTo == p.timeTo.value
    ensures p.timeTo.None? ==> r.timeTo == f.timeTo
    ensures p.location.Some? ==> r.location == p.location.value
    ensures p.location.None? ==> r.location == f.location
    ensures p.totalSeats.Some? ==> r.totalSeats == p.totalSeats.value
    ensures p.totalSeats.None? ==> r.totalSeats == f.totalSeats
    ensures p.tags.Some? ==> r.tags == p.tags.value
    ensures p.tags.None? ==> r.tags == f.tags
    ensures p.hosts.Some? ==> r.hosts == p.hosts.value
    ensures p.hosts.None? ==> r.hosts == f.hosts
    ensures p == EventPatch(None, None, None, None, None, None, None, None, None, None, None) ==> r == f
  {
    EventFields(
      Pick(p.eventTypeId, f.eventTypeId),
      Pick(p.title, f.title),
      Pick(p.description, f.description),
      Pick(p.content, f.content),
      Pick(p.date, f.date),
      Pick(p.timeFrom, f.timeFrom),
      Pick(p.timeTo, f.timeTo),
      Pick(p.location, f.location),
      Pick(p.totalSeats, f.totalSeats),
      Pick(p.tags, f.tags),
      Pick(p.hosts, f.hosts))
  }

  /** `EventWriteSerializer.update` as written: a new picture is uploaded but its
      path goes to `image_path`, an attribute that is not a column, so the stored
      `image` keeps its old value. */
  function UpdateEventAsWritten(cfg: Config, st: Store, e: Event, p: EventPatch, image: Option<UploadedFile>, token: string): (w: EventWrite)
    requires IsUuidText(token)
    ensures w.event.id == e.id && w.event.fields == ApplyEventPatch(e.fields, p)
    ensures w.event.image == e.image
    ensures w.saved
    ensures image.None? ==> w.store == st
    ensures image.Some? ==> Objects(w.store, cfg.uploadBucket) == Objects(st, cfg.uploadBucket) + {UploadPath("events", token, image.value.name)}
    ensures forall b :: b != cfg.uploadBucket ==> Objects(w.store, b) == Objects(st, b)
  {
    var updated := e.(fields := ApplyEventPatch(e.fields, p));
    match image
    case None => EventWrite(updated, st, true)
    case Some(f) =>
      var u := UploadFile(cfg, st, f, "events", token);
      EventWrite(updated, u.store, true)
  }

  /** `EventWriteSerializer.update` as evidently intended: the new picture's path
      replaces `image`, and one `save` writes the row, failing and leaving it as
      it was when the path is longer than the column. The previous object is
      left in the bucket. */
  function UpdateEvent(cfg: Config, st: Store, e: Event, p: EventPatch, image: Option<UploadedFile>, token: string): (w: EventWrite)
    requires IsUuidText(token)
    ensures w.saved <==> image.None? || |image.value.name| <= LongestImageName
    ensures !w.saved ==> w.event == e
    ensures w.event.id == e.id
    ensures w.saved ==> w.event.fields == ApplyEventPatch(e.fields, p)
    ensures image.None? ==> w.event.image == e.image && w.store == st
    ensures image.Some? && w.saved ==> w.event.image == Some(UploadPath("events", token, image.value.name))
    ensures image.Some? ==> Objects(w.store, cfg.uploadBucket) == Objects(st, cfg.uploadBucket) + {UploadPath("events", token, image.value.name)}
    ensures forall b :: b != cfg.uploadBucket ==> Objects(w.store, b) == Objects(st, b)
    ensures EventWithinBounds(e) && EventWithinBounds(e.(fields := ApplyEventPatch(e.fields, p))) ==> EventWithinBounds(w.event)
  {
    var updated := e.(fields := ApplyEventPatch(e.fields, p));
    match image
    case None => EventWrite(updated, st, true)
    case Some(f) =>
      var u := UploadFile(cfg, st, f, "events", token);
      if |u.path| <= ImageColumnLength then EventWrite(updated.(image := Some(u.path)), u.store, true)
      else EventWrite(e, u.store, false)
  }

  /** After an update with a new picture, the written code still shows the old
      picture (or none), and the uploaded object is referenced by no row; the
      intended update shows the new one whenever its path fits the column. */
  lemma UpdateEventImageDiscrepancy(cfg: Config, st: Store, e: Event, p: EventPatch, f: UploadedFile, token: string)
    requires IsUuidText(token)
    requires e.image == None
    ensures DisplayUrl(cfg, UpdateEventAsWritten(cfg, st, e, p, Some(f), token).event.image) == None
    ensures UploadPath("events", token, f.name) in Objects(UpdateEventAsWritten(cfg, st, e, p, Some(f), token).store, cfg.uploadBucket)
    ensures |f.name| <= LongestImageName ==>
      DisplayUrl(cfg, UpdateEvent(cfg, st, e, p, Some(f), token).event.image)
        == Some(PublicUrl(cfg, UploadPath("events", token, f.name)))
  {
    var q := UploadPath("events", token, f.name);
    assert q != "";
  }
}

=== FILE: permissions.dfy ===
/** The permission classes of `backend/api/permissions.py`, as functions of the
    request user, the HTTP method and the request data. The Python expression
    `role == LEAD or ADMIN` is evaluated with Python's `or` and truthiness. */
module Permissions {
  import opened Common
  import opened Text

  const Admin := "ADMIN"
  const Lead := "LEAD"
  const StudentRole := "STUDENT"
  const Treasurer := "TREASURER"

  /** The HTTP methods a request can carry. */
  datatype HttpMethod = GET | HEAD | OPTIONS | POST | PUT | PATCH | DELETE | TRACE

  /** DRF's `SAFE_METHODS`. */
  predicate IsSafe(m: HttpMethod) {
    m == GET || m == HEAD || m == OPTIONS
  }

  /** The student profile linked to a user (`user.student`), when there is one. */
  datatype StudentProfile = StudentProfile(club: string, title: string)

  /** `request.user`: the anonymous user, or an account with its role and
      optional student profile. */
  datatype RequestUser =
    | Anonymous
    | Account(id: nat, role: string, student: Option<StudentProfile>)
  {
    predicate IsAuthenticated() {
      Account?
    }
  }

  /** A Python value that is either a boolean or a string. */
  datatype PyValue = PyBool(b: bool) | PyStr(s: string)

  /** Python truthiness: `False` and `""` are falsy. */
  predicate PyTruthy(v: PyValue) {
    match v
    case PyBool(b) => b
    case PyStr(s) => s != ""
  }

  /** The value of `role == LEAD or ADMIN`: `True` when the role is LEAD,
      otherwise the right operand, the string `'ADMIN'`. */
  function LeadOrAdminExpr(role: string): PyValue {
    if role == Lead then PyBool(true) else PyStr(Admin)
  }

  /** The verdict of a `has_permission` that may raise: allowed, refused
      (returning `False` or raising `PermissionDenied`), or failed with another
      exception. */
  datatype Check = Allow | Deny | Fault(reason: string)

  /** `IsLead.has_permission`. */
  predicate IsLead(u: RequestUser) {
    u.IsAuthenticated() && u.role == Lead
  }

  /** `IsAdmin.has_permission`. */
  predicate IsAdmin(u: RequestUser) {
    u.IsAuthenticated() && u.role == Admin
  }

  /** `IsAdminOrReadOnly.has_permission`. */
  function IsAdminOrReadOnly(u: RequestUser, m: HttpMethod): (r: bool)
    ensures IsSafe(m) ==> r
    ensures !IsSafe(m) ==> (r <==> u.Account? && u.role == Admin)
  {
    if IsSafe(m) then true else IsAdmin(u)
  }

  /** `IsLeadOrAdmin.has_permission`, as written: since the string `'ADMIN'` is
      truthy, it admits every authenticated user whatever the role. */
  function IsLeadOrAdmin(u: RequestUser): (r: bool)
    ensures r <==> u.Account?
  {
    u.IsAuthenticated() && PyTruthy(LeadOrAdminExpr(u.role))
  }

  /** `is_staff(role)`, as written: truthy for every role. */
  function IsStaff(role: string): (v: PyValue)
    ensures PyTruthy(v)
    ensures role != Lead ==> v == PyStr(Admin)
  {
    LeadOrAdminExpr(role)
  }

  /** What `role == LEAD or ADMIN` is evidently meant to test: `role in (LEAD, ADMIN)`. */
  function IsLeadOrAdminIntended(u: RequestUser): (r: bool)
    ensures r <==> IsLead(u) || IsAdmin(u)
  {
    u.IsAuthenticated() && (u.role == Lead || u.role == Admin)
  }

  /** The written check admits a STUDENT account that the intended one refuses. */
  lemma LeadOrAdminAdmitsStudent()
    ensures IsLeadOrAdmin(Account(1, StudentRole, None))
    ensures !IsLeadOrAdminIntended(Account(1, StudentRole, None))
  {
  }

  /** The written check and the intended one agree exactly on LEAD and ADMIN
      accounts and on anonymous users. */
  lemma LeadOrAdminAgreesOnStaff(u: RequestUser)
    ensures IsLeadOrAdminIntended(u) ==> IsLeadOrAdmin(u)
    ensures IsLeadOrAdmin(u) && !IsLeadOrAdminIntended(u) <==> u.Account? && u.role != Lead && u.role != Admin
  {
  }

  /** `IsTreasurer.has_permission`: the upper-cased title of the user's student
      profile must be TREASURER; an account without a profile makes the
      `user.student` lookup raise. */
  function IsTreasurer(u: RequestUser): (c: Check)
    ensures c.Allow? <==> u.Account? && u.student.Some? && Upper(u.student.value.title) == Treasurer
    ensures c.Fault? <==> u.Account? && u.student.None?
    ensures u.Anonymous? ==> c == Deny
  {
    match u
    case Anonymous => Deny
    case Account(_, _, student) =>
      match student
      case None => Fault("RelatedObjectDoesNotExist: User has no student.")
      case Some(profile) => if Upper(profile.title) == Treasurer then Allow else Deny
  }

  /** Titles that differ only in the case of ASCII letters get the same verdict. */
  lemma IsTreasurerIgnoresCase(u: RequestUser, title: string)
    requires u.Account? && u.student.Some?
    requires Upper(title) == Upper(u.student.value.title)
    ensures IsTreasurer(u.(student := Some(u.student.value.(title := title)))) == IsTreasurer(u)
  {
  }

  /** The titles that pass under ASCII upper-casing: TREASURER with each
      letter in either case. */
  lemma {:induction false} TreasurerTitles(t: string)
    ensures Upper(t) == Treasurer <==>
      |t| == |Treasurer| && forall i :: 0 <= i < |t| ==> t[i] == Treasurer[i] || t[i] as int == Treasurer[i] as int + 32
  {
    var r := Upper(t);
    assert forall i :: 0 <= i < |Treasurer| ==> 'A' <= Treasurer[i] <= 'Z';
    if r == Treasurer {
      forall i | 0 <= i < |t|
        ensures t[i] == Treasurer[i] || t[i] as int == Treasurer[i] as int + 32
      {
        assert r[i] == Treasurer[i];
      }
    }
    if |t| == |Treasurer| && forall i :: 0 <= i < |t| ==> t[i] == Treasurer[i] || t[i] as int == Treasurer[i] as int + 32 {
      forall i | 0 <= i < |t|
        ensures r[i] == Treasurer[i]
      {
        if t[i] != Treasurer[i] {
          assert IsLowerAscii(t[i]);
        }
      }
    }
  }

  /** `SignUpPermission.has_permission`, where `club` is `request.data['club']`
      (`None` when the key is missing). */
  function SignUpPermission(u: RequestUser, club: Option<string>): (c: Check)
    ensures c.Deny? <==> u.Account? && u.role == Lead && u.student.Some? && club.Some? && u.student.value.club != club.value
    ensures c.Fault? <==> u.Account? && u.role == Lead && (u.student.None? || club.None?)
    ensures u.Anonymous? || u.role != Lead ==> c == Allow
  {
    if u.IsAuthenticated() && PyTruthy(LeadOrAdminExpr(u.role)) then
      if u.role == Lead then
        match u.student
        case None => Fault("RelatedObjectDoesNotExist: User has no student.")
        case Some(profile) =>
          match club
          case None => Fault("KeyError: 'club'")
          case Some(requested) =>
            if profile.club != requested then Deny else Allow
      else Allow
    else Allow
  }

  /** `IsAdminOrAuthor.has_permission`: only lets authenticated users on to the
      object-level check. */
  predicate AdminOrAuthorViewLevel(u: RequestUser) {
    u.IsAuthenticated()
  }

  /** `IsAdminOrAuthor.has_object_permission` for a blog written by `authorId`;
      DRF only asks it after the view-level check passed. */
  predicate AdminOrAuthorObjectLevel(u: RequestUser, authorId: nat)
    requires AdminOrAuthorViewLevel(u)
  {
    u.role == Admin || u.id == authorId
  }

  /** Access to one blog through `IsAdminOrAuthor`: both checks in DRF's order.
      A user who is neither an ADMIN nor the author never gets through. */
  function IsAdminOrAuthor(u: RequestUser, authorId: nat): (r: bool)
    ensures r <==> u.Account? && (u.role == Admin || u.id == authorId)
  {
    AdminOrAuthorViewLevel(u) && AdminOrAuthorObjectLevel(u, authorId)
  }
}

=== FILE: recruitment.dfy ===
/** The query rules of `backend/api/views/recruitment.py`: the window of active
    sessions, the status-update action, and the filters and row contents of the
    Excel and PDF exports. Dates are day numbers; the application-status and
    role choice sets are arguments, because the recruitment models are not part
    of this model. Spreadsheet and PDF layout are not modelled, only the cells. */
module Recruitment {
  import opened Common
  import opened Text

  datatype Session = Session(
    id: nat,
    uniSession: string,
    applicationStart: nat,
    applicationEnd: nat,
    interviewStart: nat,
    interviewEnd: nat,
    resultDate: nat)

  datatype PersonalInfo = PersonalInfo(firstName: string, lastName: string, email: string, phoneNumber: string)

  datatype AcademicInfo = AcademicInfo(
    regNo: string,
    program: string,
    currentSemester: nat,
    skills: seq<string>,
    relevantCoursework: seq<string>)

  datatype RolePreferences = RolePreferences(
    preferredRole: string,
    secondaryRole: string,
    joinPurpose: string,
    previousExperience: string,
    weeklyAvailability: string,
    linkedinProfile: string)

  /** An application with its session and its optional related records. */
  datatype Application = Application(
    id: nat,
    status: string,
    session: Session,
    personal: Option<PersonalInfo>,
    academic: Option<AcademicInfo>,
    role: Option<RolePreferences>)

  // ---------------------------------------------------------------------------
  // active sessions

  predicate OpenOn(s: Session, today: nat) {
    s.applicationStart <= today <= s.applicationEnd
  }

  /** `ActiveRecruitmentSessionView.get_queryset`: sessions whose application
      window contains today, both ends included, in their order. */
  function ActiveSessions(sessions: seq<Session>, today: nat): (r: seq<Session>)
    ensures forall s :: s in r <==> s in sessions && s.applicationStart <= today && today <= s.applicationEnd
    ensures |r| <= |sessions|
  {
    Filter(sessions, s => OpenOn(s, today))
  }

  /** The first and last day of the window both count as open. */
  lemma WindowInclusive(s: Session, sessions: seq<Session>)
    requires s in sessions && s.applicationStart <= s.applicationEnd
    ensures s in ActiveSessions(sessions, s.applicationStart)
    ensures s in ActiveSessions(sessions, s.applicationEnd)
    ensures s !in ActiveSessions(sessions, s.applicationEnd + 1)
  {
  }

  // ---------------------------------------------------------------------------
  // status update

  datatype StatusUpdate = StatusUpdate(code: nat, app: Application)

  /** `ApplicationStatusUpdateViewSet.update_status`: a missing or empty status
      is answered with 400 and changes nothing; any other value is stored as
      given, without checking it against the status choices. */
  function UpdateStatus(app: Application, newStatus: Option<string>): (r: StatusUpdate)
    ensures !Truthy(newStatus) ==> r.code == 400 && r.app == app
    ensures Truthy(newStatus) ==> r.code == 200 && r.app.status == newStatus.value
    ensures r.app.(status := app.status) == app
  {
    if !Truthy(newStatus) then StatusUpdate(400, app)
    else StatusUpdate(200, app.(status := newStatus.value))
  }

  // ---------------------------------------------------------------------------
  // export filters

  /** The query parameters of the exports; `None` when absent. */
  datatype ExportQuery = ExportQuery(
    sessionId: Option<string>,
    sessionCode: Option<string>,
    status: Option<string>,
    preferredRole: Option<string>)

  /** The applications an export lists, or why there are none. */
  datatype Selection =
    | Selected(apps: seq<Application>)
    | BadRequest(message: string)
    | ServerError(reason: string)

  /** The session filter: a non-empty `session_id` wins over the session code. A
      `session_id` that is not a number makes the id lookup raise. */
  function FilterBySession(apps: seq<Application>, q: ExportQuery): (r: Selection)
    ensures r.BadRequest? == false
    ensures Truthy(q.sessionId) && ParseDecimal(q.sessionId.value).Some? ==>
      r == Selected(Filter(apps, (a: Application) => a.session.id == ParseDecimal(q.sessionId.value).value))
    ensures Truthy(q.sessionId) && ParseDecimal(q.sessionId.value).None? ==> r.ServerError?
    ensures !Truthy(q.sessionId) && Truthy(q.sessionCode) ==>
      r == Selected(Filter(apps, (a: Application) => a.session.uniSession == q.sessionCode.value))
    ensures !Truthy(q.sessionId) && !Truthy(q.sessionCode) ==> r == Selected(apps)
  {
    if Truthy(q.sessionId) then
      match ParseDecimal(q.sessionId.value)
      case None => ServerError("Field 'id' expected a number but got '" + q.sessionId.value + "'.")
      case Some(id) => Selected(Filter(apps, (a: Application) => a.session.id == id))
    else if Truthy(q.sessionCode) then
      Selected(Filter(apps, (a: Application) => a.session.uniSession == q.sessionCode.value))
    else Selected(apps)
  }

  /** The status filter: a non-empty status outside the choices is answered with 400. */
  function FilterByStatus(sel: Selection, status: Option<string>, statusValues: set<string>, invalid: string): (r: Selection)
    ensures !sel.Selected? ==> r == sel
    ensures sel.Selected? && Truthy(status) && status.value !in statusValues ==> r == BadRequest(invalid)
    ensures sel.Selected? && Truthy(status) && status.value in statusValues ==>
      r == Selected(Filter(sel.apps, (a: Application) => a.status == status.value))
    ensures sel.Selected? && !Truthy(status) ==> r == sel
  {
    if !sel.Selected? || !Truthy(status) then sel
    else if status.value !in statusValues then BadRequest(invalid)
    else Selected(Filter(sel.apps, (a: Application) => a.status == status.value))
  }

  /** The preferred-role filter of the Excel export: an unknown role is answered
      with 400; applications without role preferences never match a role. */
  function FilterByRole(sel: Selection, role: Option<string>, roleValues: set<string>): (r: Selection)
    ensures !sel.Selected? ==> r == sel
    ensures sel.Selected? && Truthy(role) && role.value !in roleValues ==> r == BadRequest("Invalid preferred role")
    ensures sel.Selected? && Truthy(role) && role.value in roleValues ==>
      r == Selected(Filter(sel.apps, (a: Application) => a.role.Some? && a.role.value.preferredRole == role.value))
    ensures sel.Selected? && !Truthy(role) ==> r == sel
  {
    if !sel.Selected? || !Truthy(role) then sel
    else if role.value !in roleValues then BadRequest("Invalid preferred role")
    else Selected(Filter(sel.apps, (a: Application) => a.role.Some? && a.role.value.preferredRole == role.value))
  }

  /** The applications `RecruitmentApplicationsExcelView.get` exports. */
  function ExcelSelection(apps: seq<Application>, q: ExportQuery, statusValues: set<string>, roleValues: set<string>): Selection {
    FilterByRole(FilterByStatus(FilterBySession(apps, q), q.status, statusValues, "Invalid status value"), q.preferredRole, roleValues)
  }

  /** The applications `RecruitmentApplicationsPDFView.get` exports; it has no
      role filter. */
  function PdfSelection(apps: seq<Application>, q: ExportQuery, statusValues: set<string>): Selection {
    FilterByStatus(FilterBySession(apps, q), q.status, statusValues, "Invalid status")
  }

  /** With a non-empty `session_id`, the session code has no effect on either export. */
  lemma SessionIdTakesPrecedence(apps: seq<Application>, q: ExportQuery, code: Option<string>, statusValues: set<string>, roleValues: set<string>)
    requires Truthy(q.sessionId)
    ensures ExcelSelection(apps, q.(sessionCode := code), statusValues, roleValues) == ExcelSelection(apps, q, statusValues, roleValues)
    ensures PdfSelection(apps, q.(sessionCode := code), statusValues) == PdfSelection(apps, q, statusValues)
  {
    assert FilterBySession(apps, q.(sessionCode := code)) == FilterBySession(apps, q);
  }

  /** A non-empty status outside the choices gets 400 from both exports, and a
      role outside the choices gets 400 from the Excel export, whenever the
      session filter itself went through. */
  lemma InvalidFiltersRejected(apps: seq<Application>, q: ExportQuery, statusValues: set<string>, roleValues: set<string>)
    requires FilterBySession(apps, q).Selected?
    ensures Truthy(q.status) && q.status.value !in statusValues ==>
      ExcelSelection(apps, q, statusValues, roleValues) == BadRequest("Invalid status value")
      && PdfSelection(apps, q, statusValues) == BadRequest("Invalid status")
    ensures (!Truthy(q.status) || q.status.value in statusValues) && Truthy(q.preferredRole) && q.preferredRole.value !in roleValues ==>
      ExcelSelection(apps, q, statusValues, roleValues) == BadRequest("Invalid preferred role")
  {
  }

  // ---------------------------------------------------------------------------
  // export rows

  /** A spreadsheet or table cell. */
  datatype Cell = Num(n: int) | Day(d: nat) | Txt(s: string)

  const ExcelHeaders: seq<string> := [
    "Application ID", "Status",
    "Session", "Application Start", "Application End",
    "Interview Start", "Interview End", "Result Date",
    "First Name", "Last Name", "Email", "Phone",
    "Registration No", "Program", "Current Semester",
    "Skills", "Relevant Coursework",
    "Preferred Role", "Secondary Role",
    "Join Purpose", "Previous Experience",
    "Weekly Availability", "LinkedIn"]

  const PdfHeaders: seq<string> := ["ID", "Status", "Session", "Name", "Email", "Reg No", "Program", "Preferred Role"]

  function PersonalCells(p: Option<PersonalInfo>): (cells: seq<Cell>)
    ensures |cells| == 4
  {
    if p.Some? then [Txt(p.value.firstName), Txt(p.value.lastName), Txt(p.value.email), Txt(p.value.phoneNumber)]
    else [Txt(""), Txt(""), Txt(""), Txt("")]
  }

  function AcademicCells(a: Option<AcademicInfo>): (cells: seq<Cell>)
    ensures |cells| == 5
  {
    if a.Some? then
      [Txt(a.value.regNo), Txt(a.value.program), Num(a.value.currentSemester),
       Txt(Join(a.value.skills, ", ")), Txt(Join(a.value.relevantCoursework, ", "))]
    else [Txt(""), Txt(""), Txt(""), Txt(""), Txt("")]
  }

  function RoleCells(r: Option<RolePreferences>): (cells: seq<Cell>)
    ensures |cells| == 6
  {
    if r.Some? then
      [Txt(r.value.preferredRole), Txt(r.value.secondaryRole), Txt(r.value.joinPurpose),
       Txt(r.value.previousExperience), Txt(r.value.weeklyAvailability), Txt(r.value.linkedinProfile)]
    else [Txt(""), Txt(""), Txt(""), Txt(""), Txt(""), Txt("")]
  }

  /** One application's row of the Excel export. */
  function ExcelRow(app: Application): (row: seq<Cell>)
    ensures |row| == |ExcelHeaders| == 23
    ensures row[0] == Num(app.id) && row[1] == Txt(app.status) && row[2] == Txt(app.session.uniSession)
    ensures app.personal.None? ==> forall i :: 8 <= i < 12 ==> row[i] == Txt("")
    ensures app.academic.None? ==> forall i :: 12 <= i < 17 ==> row[i] == Txt("")
    ensures app.role.None? ==> forall i :: 17 <= i < 23 ==> row[i] == Txt("")
    ensures app.academic.Some? ==> row[15] == Txt(Join(app.academic.value.skills, ", "))
    ensures app.academic.Some? ==> row[16] == Txt(Join(app.academic.value.relevantCoursework, ", "))
  {
    var s := app.session;
    [Num(app.id), Txt(app.status), Txt(s.uniSession),
     Day(s.applicationStart), Day(s.applicationEnd), Day(s.interviewStart), Day(s.interviewEnd), Day(s.resultDate)]
    + PersonalCells(app.personal) + AcademicCells(app.academic) + RoleCells(app.role)
  }

  /** One application's row of the PDF table. */
  function PdfRow(app: Application): (row: seq<Cell>)
    ensures |row| == |PdfHeaders| == 8
    ensures row[3] == Txt(if app.personal.Some? then app.personal.value.firstName + " " + app.personal.value.lastName else "")
  {
    [Num(app.id), Txt(app.status), Txt(app.session.uniSession),
     Txt(if app.personal.Some? then app.personal.value.firstName + " " + app.personal.value.lastName else ""),
     Txt(if app.personal.Some? then app.personal.value.email else ""),
     Txt(if app.academic.Some? then app.academic.value.regNo else ""),
     Txt(if app.academic.Some? then app.academic.value.program else ""),
     Txt(if app.role.Some? then app.role.value.preferredRole else "")]
  }

  /** The Excel column holding the same value as each PDF column (the name
      column has none: it joins two Excel columns). */
  const PdfToExcelColumn: seq<nat> := [0, 1, 2, 8, 10, 12, 13, 17]

  /** Every PDF cell but the name is the Excel cell of the same field, and the
      name cell joins the first- and last-name cells with a space. */
  lemma PdfRowAgreesWithExcelRow(app: Application)
    ensures forall j :: 0 <= j < 8 && j != 3 ==> PdfRow(app)[j] == ExcelRow(app)[PdfToExcelColumn[j]]
    ensures app.personal.Some? ==>
      ExcelRow(app)[8] == Txt(app.personal.value.firstName) && ExcelRow(app)[9] == Txt(app.personal.value.lastName)
      && PdfRow(app)[3] == Txt(app.personal.value.firstName + " " + app.personal.value.lastName)
  {
    var e := ExcelRow(app);
    var pc := PersonalCells(app.personal);
    var ac := AcademicCells(app.academic);
    var rc := RoleCells(app.role);
    assert e[8..12] == pc && e[12..17] == ac && e[17..23] == rc;
    assert e[8] == pc[0] && e[9] == pc[1] && e[10] == pc[2];
    assert e[12] == ac[0] && e[13] == ac[1] && e[17] == rc[0];
  }

  /** What an export answers: its table, or the error. */
  datatype ExportResult =
    | Table(header: seq<string>, rows: seq<seq<Cell>>)
    | Failed(code: nat, message: string)

  function Rows(apps: seq<Application>, row: Application -> seq<Cell>): (rs: seq<seq<Cell>>)
    ensures |rs| == |apps|
    ensures forall i :: 0 <= i < |apps| ==> rs[i] == row(apps[i])
  {
    seq(|apps|, i requires 0 <= i < |apps| => row(apps[i]))
  }

  function Answer(sel: Selection, header: seq<string>, row: Application -> seq<Cell>): (r: ExportResult)
    ensures sel.Selected? <==> r.Table?
    ensures sel.BadRequest? ==> r == Failed(400, sel.message)
    ensures sel.ServerError? ==> r.Failed? && r.code == 500
    ensures sel.Selected? ==> r.header == header && r.rows == Rows(sel.apps, row)
  {
    match sel
    case Selected(apps) => Table(header, Rows(apps, row))
    case BadRequest(msg) => Failed(400, msg)
    case ServerError(reason) => Failed(500, reason)
  }

  /** `RecruitmentApplicationsExcelView.get`: a 23-column header, then one
      23-cell row per selected application. */
  function ExcelExport(apps: seq<Application>, q: ExportQuery, statusValues: set<string>, roleValues: set<string>): (r: ExportResult)
    ensures r.Table? ==> |r.header| == 23
    ensures r.Table? <==> ExcelSelection(apps, q, statusValues, roleValues).Selected?
    ensures ExcelSelection(apps, q, statusValues, roleValues).BadRequest? ==>
      r == Failed(400, ExcelSelection(apps, q, statusValues, roleValues).message)
    ensures r.Table? ==> |r.rows| == |ExcelSelection(apps, q, statusValues, roleValues).apps|
    ensures r.Table? ==> forall i :: 0 <= i < |r.rows| ==> |r.rows[i]| == 23
    ensures r.Table? ==> forall i :: 0 <= i < |r.rows| ==> r.rows[i][0] == Num(ExcelSelection(apps, q, statusValues, roleValues).apps[i].id)
    ensures r.Table? ==> forall i :: 0 <= i < |r.rows| ==> r.rows[i] == ExcelRow(ExcelSelection(apps, q, statusValues, roleValues).apps[i])
  {
    Answer(ExcelSelection(apps, q, statusValues, roleValues), ExcelHeaders, ExcelRow)
  }

  /** `RecruitmentApplicationsPDFView.get`: an 8-column header, then one 8-cell
      row per selected application. */
  function PdfExport(apps: seq<Application>, q: ExportQuery, statusValues: set<string>): (r: ExportResult)
    ensures r.Table? ==> |r.header| == 8
    ensures r.Table? <==> PdfSelection(apps, q, statusValues).Selected?
    ensures PdfSelection(apps, q, statusValues).BadRequest? ==> r == Failed(400, PdfSelection(apps, q, statusValues).message)
    ensures r.Table? ==> |r.rows| == |PdfSelection(apps, q, statusValues).apps|
    ensures r.Table? ==> forall i :: 0 <= i < |r.rows| ==> |r.rows[i]| == 8
    ensures r.Table? ==> forall i :: 0 <= i < |r.rows| ==> r.rows[i] == PdfRow(PdfSelection(apps, q, statusValues).apps[i])
  {
    Answer(PdfSelection(apps, q, statusValues), PdfHeaders, PdfRow)
  }

  /** With no filter at all, both exports list every application. */
  lemma NoFilterExportsEverything(apps: seq<Application>, statusValues: set<string>, roleValues: set<string>)
    ensures ExcelExport(apps, ExportQuery(None, None, None, None), statusValues, roleValues).rows == Rows(apps, ExcelRow)
    ensures PdfExport(apps, ExportQuery(None, None, None, None), statusValues).rows == Rows(apps, PdfRow)
  {
  }
}

=== FILE: storage.dfy ===
/** The object-storage helpers of `backend/api/utils.py`. The external bucket
    service is a map from bucket name to the set of object paths it holds;
    `uuid4()` becomes a `token` argument that has the shape of a uuid's text. */
module Storage {
  import opened Common
  import opened Text

  /** The deployment settings the helpers read: `SUPABASE_URL` and `SUPABASE_BUCKET`. */
  datatype Config = Config(supabaseUrl: string, uploadBucket: string)

  /** A file received in a request: its client-side name and the content type
      detected from the image data when the image field cleaned it. */
  datatype UploadedFile = UploadedFile(name: string, contentType: Option<string>)

  /** Bucket name -> the object paths stored in that bucket. */
  type Store = map<string, set<string>>

  /** The bucket named literally by every delete call of the serializers. */
  const MediaBucket := "media"

  const PublicSegment := "/storage/v1/object/public/"

  function Objects(st: Store, bucket: string): set<string> {
    if bucket in st then st[bucket] else {}
  }

  predicate IsHexDigit(c: char) {
    '0' <= c <= '9' || 'a' <= c <= 'f'
  }

  predicate IsUuidDash(i: int) {
    i == 8 || i == 13 || i == 18 || i == 23
  }

  /** The text of a uuid4: 32 lower-case hex digits grouped 8-4-4-4-12 by hyphens. */
  predicate IsUuidText(t: string) {
    |t| == 36 && forall i :: 0 <= i < |t| ==> (if IsUuidDash(i) then t[i] == '-' else IsHexDigit(t[i]))
  }

  /** A uuid's text contains neither of the separators used in upload paths. */
  lemma UuidHasNoSeparators(t: string)
    requires IsUuidText(t)
    ensures '/' !in t && '_' !in t
  {
    forall i | 0 <= i < |t|
      ensures t[i] != '/' && t[i] != '_'
    {
      if IsUuidDash(i) {
        assert t[i] == '-';
      } else {
        assert IsHexDigit(t[i]);
      }
    }
  }

  /** The object path `upload_file` builds: `folder/<uuid>_<name>`. */
  function UploadPath(folder: string, token: string, name: string): string {
    folder + "/" + token + "_" + name
  }

  /** An upload path is as long as the folder, the file name and the 38
      characters of the slash, the uuid and the underscore together. */
  lemma UploadPathLength(folder: string, token: string, name: string)
    requires IsUuidText(token)
    ensures |UploadPath(folder, token, name)| == |folder| + 38 + |name|
  {
  }

  /** The result of an upload: the returned path and the store afterwards. */
  datatype Upload = Upload(path: string, store: Store)

  /** `upload_file(file, folder)`: writes one object to the upload bucket and
      returns its path. */
  function UploadFile(cfg: Config, st: Store, f: UploadedFile, folder: string, token: string): (u: Upload)
    requires IsUuidText(token)
    ensures u.path == UploadPath(folder, token, f.name)
    ensures folder + "/" <= u.path
    ensures |u.path| == |folder| + 38 + |f.name|
    ensures u.path in Objects(u.store, cfg.uploadBucket)
    ensures Objects(u.store, cfg.uploadBucket) == Objects(st, cfg.uploadBucket) + {u.path}
    ensures forall b :: b != cfg.uploadBucket ==> Objects(u.store, b) == Objects(st, b)
  {
    var path := UploadPath(folder, token, f.name);
    Upload(path, st[cfg.uploadBucket := Objects(st, cfg.uploadBucket) + {path}])
  }

  /** Cutting `s` at a separator found at `i` and gluing it back gives `s`. */
  lemma Reassemble(s: string, i: nat, sep: char)
    requires i < |s| && s[i] == sep
    ensures s[..i] + [sep] + s[i + 1..] == s
  {
  }

  /** The two pieces around the separator of `a + [sep] + b`. */
  lemma CutAround(a: string, sep: char, b: string)
    ensures (a + [sep] + b)[..|a|] == a
    ensures (a + [sep] + b)[|a| + 1..] == b
  {
  }

  /** A path glued from its folder and its `token_name` remainder is the upload path. */
  lemma GlueUploadPath(folder: string, token: string, name: string, rest: string, p: string)
    requires folder + "/" + rest == p
    requires token + "_" + name == rest
    ensures UploadPath(folder, token, name) == p
  {
    assert UploadPath(folder, token, name) == folder + "/" + (token + "_" + name);
  }

  datatype PathParts = PathParts(folder: string, token: string, name: string)

  /** Reads an upload path back into folder, token and file name: the folder runs
      to the first `/`, the token to the next `_`. */
  function SplitUploadPath(p: string): (r: Option<PathParts>)
    ensures r.Some? ==> UploadPath(r.value.folder, r.value.token, r.value.name) == p
    ensures r.Some? ==> '/' !in r.value.folder && '_' !in r.value.token
  {
    match IndexOf(p, '/')
    case None => None
    case Some(i) =>
      var rest := p[i + 1..];
      match IndexOf(rest, '_')
      case None => None
      case Some(j) =>
        Reassemble(rest, j, '_');
        Reassemble(p, i, '/');
        GlueUploadPath(p[..i], rest[..j], rest[j + 1..], rest, p);
        Some(PathParts(p[..i], rest[..j], rest[j + 1..]))
  }

  /** Every path `upload_file` returns reads back as the folder, uuid and name it
      was built from: the path determines them. */
  lemma {:induction false} UploadPathRoundTrip(folder: string, token: string, name: string)
    requires '/' !in folder
    requires IsUuidText(token)
    ensures SplitUploadPath(UploadPath(folder, token, name)) == Some(PathParts(folder, token, name))
  {
    UuidHasNoSeparators(token);
    var rest := token + "_" + name;
    var p := folder + "/" + rest;
    GlueUploadPath(folder, token, name, rest, p);
    IndexOfAfterPrefix(folder, '/', rest);
    CutAround(folder, '/', rest);
    IndexOfAfterPrefix(token, '_', name);
    CutAround(token, '_', name);
  }

  /** Two uploads into the same folder with different uuids never collide. */
  lemma UploadPathsDistinct(folder: string, t1: string, t2: string, n1: string, n2: string)
    requires '/' !in folder
    requires IsUuidText(t1) && IsUuidText(t2) && t1 != t2
    ensures UploadPath(folder, t1, n1) != UploadPath(folder, t2, n2)
  {
    UploadPathRoundTrip(folder, t1, n1);
    UploadPathRoundTrip(folder, t2, n2);
  }

  function PublicUrlPrefix(cfg: Config): string {
    cfg.supabaseUrl + PublicSegment + cfg.uploadBucket + "/"
  }

  /** `get_bucket_public_url(path)`. */
  function PublicUrl(cfg: Config, path: string): (url: string)
    ensures PublicUrlPrefix(cfg) <= url
    ensures url[|PublicUrlPrefix(cfg)|..] == path
  {
    PublicUrlPrefix(cfg) + path
  }

  /** The object path a public URL of this deployment points at. */
  function PathOfPublicUrl(cfg: Config, url: string): (r: Option<string>)
    ensures r.Some? <==> PublicUrlPrefix(cfg) <= url
    ensures r.Some? ==> PublicUrl(cfg, r.value) == url
  {
    var prefix := PublicUrlPrefix(cfg);
    if prefix <= url then
      assert url == prefix + url[|prefix|..];
      Some(url[|prefix|..])
    else None
  }

  /** A public URL names exactly the path it was built from. */
  lemma PublicUrlRoundTrip(cfg: Config, path: string)
    ensures PathOfPublicUrl(cfg, PublicUrl(cfg, path)) == Some(path)
  {
  }

  /** The `get_image`-style read fields: `None` for a missing or empty path,
      otherwise the public URL of that path. */
  function DisplayUrl(cfg: Config, image: Option<string>): (r: Option<string>)
    ensures r.None? <==> !Truthy(image)
    ensures r.Some? ==> PathOfPublicUrl(cfg, r.value) == Some(image.value)
  {
    if !Truthy(image) then None else Some(PublicUrl(cfg, image.value))
  }

  /** `delete_from_bucket(bucket, path)`. */
  function DeleteFromBucket(st: Store, bucket: string, path: string): (st': Store)
    ensures path == "" ==> st' == st
    ensures path != "" ==> path !in Objects(st', bucket)
    ensures path != "" ==> Objects(st', bucket) == Objects(st, bucket) - {path}
    ensures forall b :: b != bucket ==> Objects(st', b) == Objects(st, b)
  {
    if path == "" then st else st[bucket := Objects(st, bucket) - {path}]
  }

  /** How Python formats a model instance's `id` inside an f-string: the
      decimal number, or `None` for an instance not yet saved. */
  function IdText(id: Option<nat>): (t: string)
    ensures id.None? <==> t == "None"
    ensures '/' !in t
  {
    match id
    case None => "None"
    case Some(n) =>
      var d := DecimalOf(n);
      assert IsDigit(d[0]);
      assert forall k :: 0 <= k < |d| ==> IsDigit(d[k]);
      d
  }

  /** The `<folder>/<id>/<filename>` paths of the models' `upload_to` helpers. */
  function ModelUploadPath(folder: string, id: Option<nat>, filename: string): string {
    folder + "/" + IdText(id) + "/" + filename
  }

  /** A path glued from its folder and its `id/filename` remainder is the model upload path. */
  lemma GlueModelPath(folder: string, id: Option<nat>, filename: string, rest: string, p: string)
    requires folder + "/" + rest == p
    requires IdText(id) + "/" + filename == rest
    ensures ModelUploadPath(folder, id, filename) == p
  {
    assert ModelUploadPath(folder, id, filename) == folder + "/" + (IdText(id) + "/" + filename);
  }

  /** A model upload path starts with its folder and a slash; for an unsaved
      instance the id segment is the text `None`. */
  lemma ModelUploadPathShape(folder: string, id: Option<nat>, filename: string)
    ensures folder + "/" <= ModelUploadPath(folder, id, filename)
    ensures id.None? ==> ModelUploadPath(folder, id, filename) == folder + "/None/" + filename
  {
    var p := ModelUploadPath(folder, id, filename);
    assert p == (folder + "/") + (IdText(id) + "/" + filename);
  }

  datatype ModelPathParts = ModelPathParts(folder: string, id: Option<nat>, filename: string)

  /** Reads the id segment back: `None` for the text `None`, the number for a
      canonical decimal, nothing otherwise. */
  function ParseIdText(t: string): (r: Option<Option<nat>>)
    ensures r.Some? ==> IdText(r.value) == t
  {
    if t == "None" then Some(None)
    else if ParseDecimal(t).Some? && DecimalOf(ParseDecimal(t).value) == t then Some(Some(ParseDecimal(t).value))
    else None
  }

  /** Reads a `<folder>/<id>/<filename>` path back; `None` when it has another shape. */
  function SplitModelUploadPath(p: string): (r: Option<ModelPathParts>)
    ensures r.Some? ==> ModelUploadPath(r.value.folder, r.value.id, r.value.filename) == p
  {
    match IndexOf(p, '/')
    case None => None
    case Some(i) =>
      var rest := p[i + 1..];
      match IndexOf(rest, '/')
      case None => None
      case Some(j) =>
        match ParseIdText(rest[..j])
        case None => None
        case Some(id) =>
          Reassemble(rest, j, '/');
          Reassemble(p, i, '/');
          GlueModelPath(p[..i], id, rest[j + 1..], rest, p);
          Some(ModelPathParts(p[..i], id, rest[j + 1..]))
  }

  /** A model upload path determines the folder, instance id (or its absence)
      and file name. */
  lemma {:induction false} ModelUploadPathRoundTrip(folder: string, id: Option<nat>, filename: string)
    requires '/' !in folder
    ensures SplitModelUploadPath(ModelUploadPath(folder, id, filename)) == Some(ModelPathParts(folder, id, filename))
  {
    var d := IdText(id);
    var rest := d + "/" + filename;
    var p := folder + "/" + rest;
    GlueModelPath(folder, id, filename, rest, p);
    IndexOfAfterPrefix(folder, '/', rest);
    CutAround(folder, '/', rest);
    IndexOfAfterPrefix(d, '/', filename);
    CutAround(d, '/', filename);
    if id.Some? {
      ParseDecimalOf(id.value);
    }
  }
}

=== FILE: text.dfy ===
/** Text helpers shared by the rest of the model: ASCII upper-casing (Python's
    `str.upper` on ASCII text), decimal rendering of ids (what an f-string does
    with an int), `str.join`, and searching for a character. */
module Text {
  import opened Common

  predicate IsLowerAscii(c: char) {
    'a' <= c <= 'z'
  }

  predicate IsDigit(c: char) {
    '0' <= c <= '9'
  }

  function UpperChar(c: char): char {
    if IsLowerAscii(c) then (c as int - 32) as char else c
  }

  /** `s.upper()` restricted to ASCII letters. */
  function Upper(s: string): (r: string)
    ensures |r| == |s|
    ensures forall i :: 0 <= i < |r| ==> !IsLowerAscii(r[i])
    ensures forall i :: 0 <= i < |s| && !IsLowerAscii(s[i]) ==> r[i] == s[i]
    ensures forall i :: 0 <= i < |s| && IsLowerAscii(s[i]) ==> r[i] as int == s[i] as int - 32
  {
    if s == [] then [] else [UpperChar(s[0])] + Upper(s[1..])
  }

  /** Upper-casing twice is upper-casing once. */
  lemma UpperIdempotent(s: string)
    ensures Upper(Upper(s)) == Upper(s)
  {
    var u := Upper(s);
    assert forall i :: 0 <= i < |u| ==> Upper(u)[i] == u[i];
  }

  function DigitChar(d: nat): (c: char)
    requires d < 10
    ensures IsDigit(c)
  {
    ('0' as int + d) as char
  }

  function DigitValue(c: char): (d: nat)
    requires IsDigit(c)
    ensures d < 10 && DigitChar(d) == c
  {
    c as int - '0' as int
  }

  predicate AllDigits(s: string) {
    forall i :: 0 <= i < |s| ==> IsDigit(s[i])
  }

  /** The decimal text of a natural number, as `f"{n}"` renders it. */
  function DecimalOf(n: nat): (r: string)
    ensures |r| > 0 && AllDigits(r)
    ensures r[0] == '0' ==> n == 0
    decreases n
  {
    if n < 10 then [DigitChar(n)] else DecimalOf(n / 10) + [DigitChar(n % 10)]
  }

  /** The value of a string of decimal digits. */
  function DigitsValue(s: string): nat
    requires AllDigits(s)
  {
    if s == [] then 0 else DigitsValue(s[..|s| - 1]) * 10 + DigitValue(s[|s| - 1])
  }

  /** Reads back a plain, non-empty run of decimal digits; anything else is `None`. */
  function ParseDecimal(s: string): (r: Option<nat>)
    ensures r.Some? <==> |s| > 0 && AllDigits(s)
  {
    if |s| > 0 && AllDigits(s) then Some(DigitsValue(s)) else None
  }

  lemma {:induction false} DigitsValueOfDecimal(n: nat)
    ensures DigitsValue(DecimalOf(n)) == n
    decreases n
  {
    if n >= 10 {
      var prefix := DecimalOf(n / 10);
      var s := prefix + [DigitChar(n % 10)];
      assert s[..|s| - 1] == prefix;
      DigitsValueOfDecimal(n / 10);
    }
  }

  /** Rendering an id in decimal and reading it back gives the id. */
  lemma ParseDecimalOf(n: nat)
    ensures ParseDecimal(DecimalOf(n)) == Some(n)
  {
    DigitsValueOfDecimal(n);
  }


  /** The characters Python's `str.isspace` accepts. */
  predicate IsSpace(c: char) {
    || c == ' ' || '\t' <= c <= '\r' || '\U{1C}' <= c <= '\U{1F}'
    || c == '\U{85}' || c == '\U{A0}' || c == '\U{1680}'
    || '\U{2000}' <= c <= '\U{200A}' || c == '\U{2028}' || c == '\U{2029}'
    || c == '\U{202F}' || c == '\U{205F}' || c == '\U{3000}'
  }

  /** `s.lstrip()`: the longest suffix of `s` that does not start with whitespace. */
  function TrimStart(s: string): (r: string)
    ensures |r| <= |s| && r == s[|s| - |r|..]
    ensures r == [] || !IsSpace(r[0])
    ensures forall i :: 0 <= i < |s| - |r| ==> IsSpace(s[i])
  {
    if s != [] && IsSpace(s[0]) then TrimStart(s[1..]) else s
  }

  /** `s.rstrip()`: the longest prefix of `s` that does not end with whitespace. */
  function TrimEnd(s: string): (r: string)
    ensures r <= s
    ensures r == [] || !IsSpace(r[|r| - 1])
    ensures forall i :: |r| <= i < |s| ==> IsSpace(s[i])
  {
    if s != [] && IsSpace(s[|s| - 1]) then TrimEnd(s[..|s| - 1]) else s
  }

  /** `s.strip()`: `s` without its leading and trailing whitespace. */
  function Strip(s: string): (r: string)
    ensures |r| <= |s|
    ensures r == [] || (!IsSpace(r[0]) && !IsSpace(r[|r| - 1]))
    ensures r == [] <==> forall i :: 0 <= i < |s| ==> IsSpace(s[i])
  {
    var t := TrimStart(s);
    assert t != [] ==> !IsSpace(t[0]) && s[|s| - |t|] == t[0];
    TrimEnd(t)
  }

  /** Whitespace around a text is stripped away. */
  lemma {:induction false} StripPadded(pre: string, s: string, post: string)
    requires forall i :: 0 <= i < |pre| ==> IsSpace(pre[i])
    requires forall i :: 0 <= i < |post| ==> IsSpace(post[i])
    requires s != [] && !IsSpace(s[0]) && !IsSpace(s[|s| - 1])
    ensures Strip(pre + s + post) == s
  {
    TrimStartPadded(pre, s + post);
    assert pre + s + post == pre + (s + post);
    TrimEndPadded(s, post);
  }

  lemma {:induction false} TrimStartPadded(pre: string, s: string)
    requires forall i :: 0 <= i < |pre| ==> IsSpace(pre[i])
    requires s != [] && !IsSpace(s[0])
    ensures TrimStart(pre + s) == s
  {
    if pre != [] {
      assert (pre + s)[1..] == pre[1..] + s;
      TrimStartPadded(pre[1..], s);
    }
  }

  lemma {:induction false} TrimEndPadded(s: string, post: string)
    requires forall i :: 0 <= i < |post| ==> IsSpace(post[i])
    requires s != [] && !IsSpace(s[|s| - 1])
    ensures TrimEnd(s + post) == s
  {
    if post != [] {
      var last := |post| - 1;
      assert (s + post)[..|s + post| - 1] == s + post[..last];
      TrimEndPadded(s, post[..last]);
    }
  }

  /** The position of the first occurrence of `c` in `s`. */
  function IndexOf(s: string, c: char): (r: Option<nat>)
    ensures r.None? <==> c !in s
    ensures r.Some? ==> r.value < |s| && s[r.value] == c && c !in s[..r.value]
  {
    if s == [] then None
    else if s[0] == c then Some(0)
    else
      match IndexOf(s[1..], c)
      case None => None
      case Some(k) =>
        assert s[1..][..k] == s[1..k + 1];
        assert s[..k + 1] == [s[0]] + s[1..k + 1];
        Some(k + 1)
  }

  /** In `a + [c] + b` with no `c` inside `a`, the first `c` is the one after `a`. */
  lemma IndexOfAfterPrefix(a: string, c: char, b: string)
    requires c !in a
    ensures IndexOf(a + [c] + b, c) == Some(|a|)
  {
    var s := a + [c] + b;
    assert s[..|a|] == a;
    assert s[|a|] == c;
    assert forall i :: 0 <= i < |a| ==> s[i] == a[i];
  }

  function SumLengths(items: seq<string>): nat {
    if items == [] then 0 else |items[0]| + SumLengths(items[1..])
  }

  /** `sep.join(items)`. */
  function Join(items: seq<string>, sep: string): (r: string)
    ensures |items| == 0 ==> r == ""
    ensures |items| == 1 ==> r == items[0]
    ensures |items| > 0 ==> |r| == SumLengths(items) + |sep| * (|items| - 1)
    ensures |items| > 0 ==> items[0] <= r
  {
    if |items| == 0 then ""
    else if |items| == 1 then items[0]
    else items[0] + sep + Join(items[1..], sep)
  }

  /** Joining two non-empty lists one after the other is joining each and
      putting one separator between the results. */
  lemma {:induction false} JoinAppend(a: seq<string>, b: seq<string>, sep: string)
    requires |a| > 0 && |b| > 0
    ensures Join(a + b, sep) == Join(a, sep) + sep + Join(b, sep)
  {
    assert (a + b)[0] == a[0];
    if |a| == 1 {
      assert (a + b)[1..] == b;
    } else {
      assert (a + b)[1..] == a[1..] + b;
      JoinAppend(a[1..], b, sep);
    }
  }
}

=== FILE: users.dfy ===
/** The rules of `backend/api/serializers/user.py`: the roll-number and club
    validators, creation and update of a student with its user account and
    profile picture, the uniqueness checks of the profile update, the profile
    update itself, login, and the public full name. User and student columns
    other than ids, the active flag and the picture are attribute maps, as the
    serializers handle them with `setattr` loops; password hashing and
    `authenticate` are function arguments. */
module Users {
  import opened Common
  import opened Text
  import opened Storage

  // ---------------------------------------------------------------------------
  // roll_no

  /** `(?:FA|SP)`: the intake term. */
  datatype Intake = FA | SP

  /** `(?:CS|AI|SE)`: the programme. */
  datatype Program = CS | AI | SE

  /** A roll number such as `FA22-BCS-012`. */
  datatype RollNo = RollNo(intake: Intake, year: nat, program: Program, serial: nat)

  predicate RollNoInRange(r: RollNo) {
    r.year < 100 && r.serial < 1000
  }

  function IntakeText(i: Intake): string {
    match i
    case FA => "FA"
    case SP => "SP"
  }

  function ProgramText(p: Program): string {
    match p
    case CS => "CS"
    case AI => "AI"
    case SE => "SE"
  }

  /** The text of a roll number: intake, two-digit year, `-B`, programme, `-`, three-digit serial. */
  function FormatRollNo(r: RollNo): (s: string)
    requires RollNoInRange(r)
    ensures |s| == 12
  {
    IntakeText(r.intake)
    + [DigitChar(r.year / 10), DigitChar(r.year % 10)]
    + "-B" + ProgramText(r.program) + "-"
    + [DigitChar(r.serial / 100), DigitChar(r.serial / 10 % 10), DigitChar(r.serial % 10)]
  }

  /** The body of `^(?:FA|SP)[0-9]{2}-B(?:CS|AI|SE)-[0-9]{3}$` on exactly twelve characters. */
  predicate MatchesRollNoBody(s: string) {
    && |s| == 12
    && (s[..2] == "FA" || s[..2] == "SP")
    && IsDigit(s[2]) && IsDigit(s[3])
    && s[4] == '-' && s[5] == 'B'
    && (s[6..8] == "CS" || s[6..8] == "AI" || s[6..8] == "SE")
    && s[8] == '-'
    && IsDigit(s[9]) && IsDigit(s[10]) && IsDigit(s[11])
  }

  /** Reads a roll number back from a string the pattern body matches. */
  function ParseRollNo(s: string): (r: RollNo)
    requires MatchesRollNoBody(s)
    ensures RollNoInRange(r)
  {
    RollNo(
      if s[..2] == "FA" then FA else SP,
      DigitValue(s[2]) * 10 + DigitValue(s[3]),
      if s[6..8] == "CS" then CS else if s[6..8] == "AI" then AI else SE,
      DigitValue(s[9]) * 100 + DigitValue(s[10]) * 10 + DigitValue(s[11]))
  }

  /** Every roll number the pattern accepts is the text of exactly one `RollNo`,
      and every `RollNo` prints to accepted text. */
  lemma RollNoRoundTrip(r: RollNo)
    requires RollNoInRange(r)
    ensures MatchesRollNoBody(FormatRollNo(r))
    ensures ParseRollNo(FormatRollNo(r)) == r
  {
    var s := FormatRollNo(r);
    assert s[..2] == IntakeText(r.intake);
    assert s[6..8] == ProgramText(r.program);
    assert DigitValue(s[2]) == r.year / 10 && DigitValue(s[3]) == r.year % 10;
    assert DigitValue(s[9]) == r.serial / 100;
    assert DigitValue(s[10]) == r.serial / 10 % 10;
    assert DigitValue(s[11]) == r.serial % 10;
  }

  lemma TwoDigitsRoundTrip(x: nat, y: nat)
    requires y < 10
    ensures (x * 10 + y) / 10 == x && (x * 10 + y) % 10 == y
  {
  }

  lemma ThreeDigitsRoundTrip(x: nat, y: nat, z: nat)
    requires x < 10 && y < 10 && z < 10
    ensures (x * 100 + y * 10 + z) / 100 == x
    ensures (x * 100 + y * 10 + z) / 10 % 10 == y
    ensures (x * 100 + y * 10 + z) % 10 == z
  {
    assert x * 100 + y * 10 + z == (x * 10 + y) * 10 + z;
    TwoDigitsRoundTrip(x * 10 + y, z);
    TwoDigitsRoundTrip(x, y);
  }

  /** A twelve-character string cut into the pieces of the roll-number layout. */
  lemma RollNoPieces(s: string)
    requires |s| == 12 && s[4] == '-' && s[5] == 'B' && s[8] == '-'
    ensures s == s[..2] + [s[2], s[3]] + "-B" + s[6..8] + "-" + [s[9], s[10], s[11]]
  {
  }

  lemma RollNoParseRoundTrip(s: string)
    requires MatchesRollNoBody(s)
    ensures FormatRollNo(ParseRollNo(s)) == s
  {
    var r := ParseRollNo(s);
    assert IntakeText(r.intake) == s[..2];
    assert ProgramText(r.program) == s[6..8];
    TwoDigitsRoundTrip(DigitValue(s[2]), DigitValue(s[3]));
    ThreeDigitsRoundTrip(DigitValue(s[9]), DigitValue(s[10]), DigitValue(s[11]));
    RollNoPieces(s);
  }

  const BlankMessage := "This field may not be blank."

  /** The `roll_no` field. Surrounding whitespace is stripped first; the
      stripped value must be non-blank, at most 20 characters and match the
      pattern, and it is the value kept. Stripped text never ends in a newline,
      so the pattern's `$` can only match at the very end. */
  function ValidateRollNo(s: string): (r: Result<string>)
    ensures r.Ok? <==> MatchesRollNoBody(Strip(s))
    ensures r.Ok? ==> r.value == Strip(s) && |r.value| <= 20
    ensures (forall i :: 0 <= i < |s| ==> IsSpace(s[i])) ==> r == Err(BlankMessage)
  {
    var v := Strip(s);
    if v == "" then Err(BlankMessage)
    else if |v| > 20 then Err("Ensure this field has no more than 20 characters.")
    else if !MatchesRollNoBody(v) then Err("This value does not match the required pattern.")
    else Ok(v)
  }

  /** A well-formed roll number is accepted with any whitespace around it, and
      what is kept is the roll number itself. */
  lemma PaddedRollNoAccepted(r: RollNo, pre: string, post: string)
    requires RollNoInRange(r)
    requires forall i :: 0 <= i < |pre| ==> IsSpace(pre[i])
    requires forall i :: 0 <= i < |post| ==> IsSpace(post[i])
    ensures ValidateRollNo(pre + FormatRollNo(r) + post) == Ok(FormatRollNo(r))
  {
    var s := FormatRollNo(r);
    RollNoRoundTrip(r);
    assert !IsSpace(s[0]) && !IsSpace(s[|s| - 1]);
    StripPadded(pre, s, post);
  }

  // ---------------------------------------------------------------------------
  // club

  /** The choices of the `club` field, the blank choice included. */
  const Clubs: seq<string> := ["CODEHUB", "GRAPHICS", "SOCIAL_MEDIA_MARKETING", "MEDIA", "DECOR", "EVENTS_LOGISTICS", ""]

  /** The `club` field. */
  function ValidateClub(s: string): (r: Result<string>)
    ensures r.Ok? <==> s in Clubs
    ensures r.Ok? ==> r.value == s
    ensures "" in Clubs && "CODEHUB" in Clubs && |Clubs| == 7
  {
    if s in Clubs then Ok(s) else Err("\"" + s + "\" is not a valid choice.")
  }

  // ---------------------------------------------------------------------------
  // students and their user accounts

  /** A `User` row: its id, the other columns by name, and `is_active`. */
  datatype User = User(id: nat, attrs: map<string, string>, isActive: bool)

  /** A `Student` row: its id, its user, the other columns by name, the bucket
      path of the picture and the profile description. */
  datatype Student = Student(id: nat, userId: nat, attrs: map<string, string>, profilePic: Option<string>, profileDesc: string)

  const PasswordKey := "password"
  const ProfilesFolder := "profiles"

  datatype StudentWrite = StudentWrite(user: User, student: Student, store: Store)

  /** `StudentSerializer.create`: a user with the hashed password, a student
      linked to it, and the picture uploaded under `profiles` when one is given. */
  function CreateStudent(
    cfg: Config, st: Store, userId: nat, studentId: nat,
    userData: map<string, string>, studentData: map<string, string>,
    pic: Option<UploadedFile>, token: string, hash: string -> string): (w: StudentWrite)
    requires PasswordKey in userData
    requires IsUuidText(token)
    ensures w.user.id == userId && w.student.id == studentId && w.student.userId == w.user.id
    ensures w.user.attrs.Keys == userData.Keys
    ensures w.user.attrs[PasswordKey] == hash(userData[PasswordKey])
    ensures forall k :: k in userData && k != PasswordKey ==> w.user.attrs[k] == userData[k]
    ensures w.student.attrs == studentData
    ensures pic.None? ==> w.student.profilePic == None && w.store == st
    ensures pic.Some? ==> w.student.profilePic == Some(UploadPath(ProfilesFolder, token, pic.value.name))
    ensures pic.Some? ==> Objects(w.store, cfg.uploadBucket) == Objects(st, cfg.uploadBucket) + {UploadPath(ProfilesFolder, token, pic.value.name)}
    ensures forall b :: b != cfg.uploadBucket ==> Objects(w.store, b) == Objects(st, b)
  {
    var user := User(userId, userData[PasswordKey := hash(userData[PasswordKey])], true);
    var student := Student(studentId, user.id, studentData, None, "");
    match pic
    case None => StudentWrite(user, student, st)
    case Some(f) =>
      var u := UploadFile(cfg, st, f, ProfilesFolder, token);
      StudentWrite(user, student.(profilePic := Some(u.path)), u.store)
  }

  /** The user loop of `StudentSerializer.update`: `password` goes through
      `set_password`, every other attribute is assigned as given. */
  function ApplyUserData(attrs: map<string, string>, data: map<string, string>, hash: string -> string): (r: map<string, string>)
    ensures r.Keys == attrs.Keys + data.Keys
    ensures forall k :: k in data && k != PasswordKey ==> r[k] == data[k]
    ensures PasswordKey in data ==> r[PasswordKey] == hash(data[PasswordKey])
    ensures forall k :: k in attrs && k !in data ==> r[k] == attrs[k]
  {
    map k | k in attrs.Keys + data.Keys ::
      if k in data then (if k == PasswordKey then hash(data[k]) else data[k]) else attrs[k]
  }

  /** `get_profile_pic_url` of the student serializers. */
  function ProfilePicUrl(cfg: Config, s: Student): (r: Option<string>)
    ensures r.None? <==> !Truthy(s.profilePic)
    ensures r.Some? ==> PathOfPublicUrl(cfg, r.value) == Some(s.profilePic.value)
  {
    DisplayUrl(cfg, s.profilePic)
  }

  /** A student created with a picture shows a URL that leads back to the
      object just uploaded: `profiles/<uuid>_<file name>`. */
  lemma CreatedStudentPictureUrl(
    cfg: Config, st: Store, userId: nat, studentId: nat,
    userData: map<string, string>, studentData: map<string, string>,
    f: UploadedFile, token: string, hash: string -> string)
    requires PasswordKey in userData
    requires IsUuidText(token)
    ensures var w := CreateStudent(cfg, st, userId, studentId, userData, studentData, Some(f), token, hash);
      && ProfilePicUrl(cfg, w.student).Some?
      && var path := PathOfPublicUrl(cfg, ProfilePicUrl(cfg, w.student).value).value;
         && SplitUploadPath(path) == Some(PathParts(ProfilesFolder, token, f.name))
         && path in Objects(w.store, cfg.uploadBucket)
  {
    UploadPathRoundTrip(ProfilesFolder, token, f.name);
  }

  /** The objects in `bucket` after the previous picture, when there is one, is
      deleted from `media`. */
  function AfterPictureDeleted(st: Store, previous: Option<string>, bucket: string): set<string> {
    if Truthy(previous) && bucket == MediaBucket then Objects(st, bucket) - {previous.value} else Objects(st, bucket)
  }

  /** The bucket side of replacing a profile picture: the old object (if any) is
      removed from the `media` bucket, then the new one is uploaded. Nothing else
      changes in any bucket. */
  function ReplacePicture(cfg: Config, st: Store, previous: Option<string>, f: UploadedFile, token: string): (u: Upload)
    requires IsUuidText(token)
    ensures u.path == UploadPath(ProfilesFolder, token, f.name)
    ensures u.path in Objects(u.store, cfg.uploadBucket)
    ensures Truthy(previous) && MediaBucket != cfg.uploadBucket ==> previous.value !in Objects(u.store, MediaBucket)
    ensures !Truthy(previous) ==> u == UploadFile(cfg, st, f, ProfilesFolder, token)
    ensures Objects(u.store, cfg.uploadBucket) == AfterPictureDeleted(st, previous, cfg.uploadBucket) + {u.path}
    ensures forall b :: b != cfg.uploadBucket ==> Objects(u.store, b) == AfterPictureDeleted(st, previous, b)
  {
    var cleared := if Truthy(previous) then DeleteFromBucket(st, MediaBucket, previous.value) else st;
    UploadFile(cfg, cleared, f, ProfilesFolder, token)
  }

  /** `StudentSerializer.update`. */
  function UpdateStudent(
    cfg: Config, st: Store, s: Student, u: User,
    studentData: map<string, string>, userData: Option<map<string, string>>,
    pic: Option<UploadedFile>, token: string, hash: string -> string): (w: StudentWrite)
    requires IsUuidText(token)
    ensures w.student.id == s.id && w.student.userId == s.userId && w.user.id == u.id
    ensures w.student.attrs == s.attrs + studentData
    ensures userData.None? || userData.value == map[] ==> w.user == u
    ensures userData.Some? ==> w.user.attrs == ApplyUserData(u.attrs, userData.value, hash)
    ensures pic.None? ==> w.student.profilePic == s.profilePic && w.store == st
    ensures pic.Some? ==> w.student.profilePic == Some(UploadPath(ProfilesFolder, token, pic.value.name))
    ensures pic.Some? ==> w.store == ReplacePicture(cfg, st, s.profilePic, pic.value, token).store
  {
    var student := s.(attrs := s.attrs + studentData);
    var user := if userData.Some? && userData.value != map[] then u.(attrs := ApplyUserData(u.attrs, userData.value, hash)) else u;
    assert userData.Some? && userData.value == map[] ==> ApplyUserData(u.attrs, userData.value, hash) == u.attrs;
    match pic
    case None => StudentWrite(user, student, st)
    case Some(f) =>
      var up := ReplacePicture(cfg, st, s.profilePic, f, token);
      StudentWrite(user, student.(profilePic := Some(up.path)), up.store)
  }

  /** Updating a student removes no object from any bucket other than its
      previous picture. */
  lemma UpdateStudentRemovesOnlyPrevious(
    cfg: Config, st: Store, s: Student, u: User,
    studentData: map<string, string>, userData: Option<map<string, string>>,
    pic: Option<UploadedFile>, token: string, hash: string -> string, bucket: string, q: string)
    requires IsUuidText(token)
    requires q in Objects(st, bucket)
    requires q !in Objects(UpdateStudent(cfg, st, s, u, studentData, userData, pic, token, hash).store, bucket)
    ensures pic.Some? && s.profilePic == Some(q) && bucket == MediaBucket
  {
  }

  // ---------------------------------------------------------------------------
  // profile updates

  /** Some user other than `current` holds `value` in column `field`. */
  predicate TakenByOther(users: seq<User>, current: nat, field: string, value: string) {
    exists i :: 0 <= i < |users| && users[i].id != current && field in users[i].attrs && users[i].attrs[field] == value
  }

  /** `ProfileUserSerializer.validate_email` / `validate_username` for `field`
      (`"email"` or `"username"`): a value held by another user is refused; the
      current user's own value is accepted; with no instance nothing is checked. */
  method ValidateUnique(users: seq<User>, instance: Option<nat>, field: string, value: string) returns (r: Result<string>)
    ensures r.Err? <==> instance.Some? && TakenByOther(users, instance.value, field, value)
    ensures r.Ok? ==> r.value == value
    ensures r.Err? ==> r.message == "user with this " + field + " already exists."
  {
    if instance.None? {
      return Ok(value);
    }
    var i := 0;
    while i < |users|
      invariant 0 <= i <= |users|
      invariant !TakenByOther(users[..i], instance.value, field, value)
    {
      if users[i].id != instance.value && field in users[i].attrs && users[i].attrs[field] == value {
        assert users[..i + 1][i] == users[i];
        return Err("user with this " + field + " already exists.");
      }
      assert forall j :: 0 <= j < i + 1 ==> users[..i + 1][j] == users[j];
      i := i + 1;
    }
    assert users[..i] == users;
    return Ok(value);
  }

  /** `ProfileUpdateSerializer.update`. `pic` and `desc` are `None` when the key
      is absent; a present `profile_pic` may be null. The file object itself is
      assigned (its name is what a text column keeps): nothing is uploaded. */
  function UpdateProfile(s: Student, u: User, pic: Option<Option<UploadedFile>>, desc: Option<string>, userData: Option<map<string, string>>): (r: (Student, User))
    ensures r.0.id == s.id && r.0.userId == s.userId && r.0.attrs == s.attrs
    ensures r.1.id == u.id && r.1.isActive == u.isActive
    ensures pic.None? ==> r.0.profilePic == s.profilePic
    ensures pic == Some(None) ==> r.0.profilePic == None
    ensures pic.Some? && pic.value.Some? ==> r.0.profilePic == Some(pic.value.value.name)
    ensures desc.None? ==> r.0.profileDesc == s.profileDesc
    ensures desc.Some? ==> r.0.profileDesc == desc.value
    ensures userData.None? ==> r.1 == u
    ensures userData.Some? ==> forall k :: k in userData.value && k != "id" ==> k in r.1.attrs && r.1.attrs[k] == userData.value[k]
    ensures forall k :: k in u.attrs && (userData.None? || k !in userData.value || k == "id") ==> k in r.1.attrs && r.1.attrs[k] == u.attrs[k]
  {
    var withPic := match pic
      case None => s
      case Some(None) => s.(profilePic := None)
      case Some(Some(f)) => s.(profilePic := Some(f.name));
    var student := if desc.Some? then withPic.(profileDesc := desc.value) else withPic;
    var user := if userData.Some? && userData.value != map[] then u.(attrs := u.attrs + (userData.value - {"id"})) else u;
    (student, user)
  }

  /** Sending the same profile update twice leaves what the first one stored. */
  lemma UpdateProfileIdempotent(s: Student, u: User, pic: Option<Option<UploadedFile>>, desc: Option<string>, userData: Option<map<string, string>>)
    ensures var (s1, u1) := UpdateProfile(s, u, pic, desc, userData);
      UpdateProfile(s1, u1, pic, desc, userData) == (s1, u1)
  {
    var (s1, u1) := UpdateProfile(s, u, pic, desc, userData);
    if userData.Some? && userData.value != map[] {
      var d := userData.value - {"id"};
      assert u1.attrs + d == u1.attrs;
    }
  }

  // ---------------------------------------------------------------------------
  // login and display

  const MissingCredentials := "Must include 'username' and 'password'."
  const BadCredentials := "Unable to log in with " + "provided credentials."
  const DisabledAccount := "User account is disabled."

  /** `LoginSerializer.validate` with `authenticate` as an argument. It only
      runs once both fields have been cleaned, see `Login`. */
  function ValidateLogin(username: Option<string>, password: Option<string>, authenticate: (string, string) -> Option<User>): (r: Result<User>)
    ensures r.Ok? <==> Truthy(username) && Truthy(password)
                       && authenticate(username.value, password.value).Some?
                       && authenticate(username.value, password.value).value.isActive
    ensures r.Ok? ==> r.value == authenticate(username.value, password.value).value
    ensures !Truthy(username) || !Truthy(password) ==> r == Err(MissingCredentials)
    ensures Truthy(username) && Truthy(password) && authenticate(username.value, password.value).None? ==> r == Err(BadCredentials)
    ensures (Truthy(username) && Truthy(password) && authenticate(username.value, password.value).Some?
             && !authenticate(username.value, password.value).value.isActive) ==> r == Err(DisabledAccount)
  {
    if Truthy(username) && Truthy(password) then
      match authenticate(username.value, password.value)
      case None => Err(BadCredentials)
      case Some(user) => if !user.isActive then Err(DisabledAccount) else Ok(user)
    else Err(MissingCredentials)
  }

  /** One value of a request body as the serializer receives it: the key
      absent, JSON `null`, or a string. */
  datatype FieldInput = Absent | Null | Text(text: string)

  const RequiredMessage := "This field is required."
  const NullMessage := "This field may not be null."
  const NullCharacterMessage := "Null characters are not allowed."

  /** A `CharField(required=True)` with DRF's defaults (`allow_null=False`,
      `allow_blank=False`, `trim_whitespace=True`, and the validator that
      refuses NUL characters): the stripped text, or the field's error. */
  function CleanCharField(v: FieldInput): (r: Result<string>)
    ensures r.Ok? <==> v.Text? && Strip(v.text) != "" && '\0' !in Strip(v.text)
    ensures r.Ok? ==> r.value == Strip(v.text)
    ensures v.Absent? ==> r == Err(RequiredMessage)
    ensures v.Null? ==> r == Err(NullMessage)
    ensures v.Text? && (forall i :: 0 <= i < |v.text| ==> IsSpace(v.text[i])) ==> r == Err(BlankMessage)
  {
    match v
    case Absent => Err(RequiredMessage)
    case Null => Err(NullMessage)
    case Text(t) =>
      var stripped := Strip(t);
      if stripped == "" then Err(BlankMessage)
      else if '\0' in stripped then Err(NullCharacterMessage)
      else Ok(stripped)
  }

  /** The answer to a login request: the user, the per-field errors (each
      `None` when that field was clean), or `validate`'s own refusal. */
  datatype LoginOutcome =
    | LoggedIn(user: User)
    | FieldErrors(username: Option<string>, password: Option<string>)
    | Refused(message: string)

  function ErrorOf(r: Result<string>): Option<string> {
    if r.Err? then Some(r.message) else None
  }

  /** `LoginSerializer(data=...).is_valid()`: both fields are cleaned first and
      their errors reported together; only when both are clean does `validate`
      run, on the stripped values. */
  function Login(username: FieldInput, password: FieldInput, authenticate: (string, string) -> Option<User>): (r: LoginOutcome)
    ensures r.FieldErrors? <==> CleanCharField(username).Err? || CleanCharField(password).Err?
    ensures r.FieldErrors? ==> (r.username == ErrorOf(CleanCharField(username))
                                && r.password == ErrorOf(CleanCharField(password)))
    ensures r.LoggedIn? <==> (CleanCharField(username).Ok? && CleanCharField(password).Ok?
                              && authenticate(Strip(username.text), Strip(password.text)).Some?
                              && authenticate(Strip(username.text), Strip(password.text)).value.isActive)
    ensures r.LoggedIn? ==> r.user == authenticate(Strip(username.text), Strip(password.text)).value
    ensures r.Refused? ==> r.message == BadCredentials || r.message == DisabledAccount
  {
    var u := CleanCharField(username);
    var p := CleanCharField(password);
    if u.Err? || p.Err? then FieldErrors(ErrorOf(u), ErrorOf(p))
    else
      match ValidateLogin(Some(u.value), Some(p.value), authenticate)
      case Ok(user) => LoggedIn(user)
      case Err(msg) => Refused(msg)
  }

  /** `validate`'s "Must include" branch is dead code: a request without a
      usable username or password is stopped by the field checks. */
  lemma LoginNeverMissingCredentials(username: FieldInput, password: FieldInput, authenticate: (string, string) -> Option<User>)
    ensures Login(username, password, authenticate) != Refused(MissingCredentials)
  {
  }

  /** The field check looks only at the stripped text. */
  lemma CleanSeesStripped(a: string, b: string)
    requires Strip(a) == Strip(b)
    ensures CleanCharField(Text(a)) == CleanCharField(Text(b))
  {
  }

  /** Whitespace alone strips to the empty text. */
  lemma {:induction false} PaddingStripsEmpty(pre: string, post: string)
    requires forall i :: 0 <= i < |pre| ==> IsSpace(pre[i])
    requires forall i :: 0 <= i < |post| ==> IsSpace(post[i])
    ensures Strip(pre + post) == []
  {
    var t := pre + post;
    forall i | 0 <= i < |t| ensures IsSpace(t[i]) {
      if i < |pre| { assert t[i] == pre[i]; } else { assert t[i] == post[i - |pre|]; }
    }
  }

  /** A credential with whitespace around it cleans to the same result as the
      credential alone. */
  lemma PaddedFieldCleansAlike(s: string, pre: string, post: string)
    requires s == [] || (!IsSpace(s[0]) && !IsSpace(s[|s| - 1]))
    requires forall i :: 0 <= i < |pre| ==> IsSpace(pre[i])
    requires forall i :: 0 <= i < |post| ==> IsSpace(post[i])
    ensures CleanCharField(Text(pre + s + post)) == CleanCharField(Text(s))
  {
    if s != [] {
      StripPadded(pre, s, post);
    } else {
      assert pre + s + post == pre + post;
      PaddingStripsEmpty(pre, post);
    }
    CleanSeesStripped(pre + s + post, s);
  }

  /** Whitespace around a credential does not change the outcome: the fields
      strip it before `authenticate` sees the values. */
  lemma PaddedCredentialsIgnored(u: string, p: string, pre: string, post: string, authenticate: (string, string) -> Option<User>)
    requires u == [] || (!IsSpace(u[0]) && !IsSpace(u[|u| - 1]))
    requires p == [] || (!IsSpace(p[0]) && !IsSpace(p[|p| - 1]))
    requires forall i :: 0 <= i < |pre| ==> IsSpace(pre[i])
    requires forall i :: 0 <= i < |post| ==> IsSpace(post[i])
    ensures Login(Text(pre + u + post), Text(pre + p + post), authenticate) == Login(Text(u), Text(p), authenticate)
  {
    PaddedFieldCleansAlike(u, pre, post);
    PaddedFieldCleansAlike(p, pre, post);
  }

  /** `PublicStudentSerializer.get_full_name`. */
  function FullName(first: string, last: string): string {
    first + " " + last
  }

  /** Splits a full name at its first space. */
  function SplitFullName(name: string): (r: Option<(string, string)>)
    ensures r.Some? ==> FullName(r.value.0, r.value.1) == name
    ensures r.None? <==> ' ' !in name
  {
    match IndexOf(name, ' ')
    case None => None
    case Some(i) =>
      assert name[..i] + [' '] + name[i + 1..] == name;
      Some((name[..i], name[i + 1..]))
  }

  /** A full name gives back the first and last name when the first name has no space. */
  lemma {:induction false} FullNameRoundTrip(first: string, last: string)
    requires ' ' !in first
    ensures SplitFullName(FullName(first, last)) == Some((first, last))
  {
    IndexOfAfterPrefix(first, ' ', last);
    var n := FullName(first, last);
    assert n[..|first|] == first;
    assert n[|first| + 1..] == last;
  }
}
